=== FILE: README.md ===
# LiftLog workout logger, modelled in Dafny

LiftLog is a small workout-logging dashboard. This project models its core logic:

- **Spreadsheet import.** It is written twice:
  - `importData.py`, a stand-alone script that rewrites two CSV files;
  - `import_excel_workouts` in `utils.py`, which replaces the hosted `workouts` and `exercises` tables.

  Both take a sheet with the columns WorkoutID, WorkoutDate, ExerciseName, Reps and WeightKG. Both forward-fill the sparse label columns and resolve each row's date as the last date that parses at or above it, skipping annotation rows such as "Chest + Back". They drop rows with no date or non-numeric numbers, store every surviving row as one set, and rebuild the sorted, duplicate-free exercise catalogue. The two versions differ in the order of these steps:
  - `importData.py` resolves dates over every row before dropping any.
  - `utils.py` forward-fills WorkoutDate the ordinary way, drops non-numeric rows first, and then resolves dates over the rows that are left. It also truncates reps with `int(...)`.
- **Store operations of `utils.py`.** `save_workout`, `delete_workout`, `get_exercise_list` and `replicate_day_workouts` are modelled as pure transitions of an in-memory value. That value holds both tables and the next id to assign.
- **Pure helpers of the dashboard `main.py`.**
  - The history filter `get_filtered_workouts`.
  - Option normalisation in `custom_autocomplete`.
  - The manual-entry submit handler. It strips the exercise name, rejects an empty one, title-cases it, and performs an edit as a delete followed by a save.

Modules:

| module | file | models |
|---|---|---|
| `Wrappers` | wrappers.dfy | `Option` and `Result` |
| `Seqs` | seqs.dfy | order-preserving filter, filter-map, zip, map and subsequence |
| `Strings` | strings.dfy | Python string order, `sorted`, sorted distinct values, `join`, `str(n)` |
| `Table` | table.dfy | cells, rows, dates, columns, numeric coercion, `int()` truncation, the cleaned record |
| `Fill` | fill.dfy | pandas `ffill` and the last-parseable-date loop |
| `ImportScript` | import_script.dfy | `replace_data_from_excel` (importData.py) |
| `Backend` | backend.dfy | the hosted tables and the `utils.py` store operations |
| `Importer` | importer.dfy | `import_excel_workouts` (utils.py) |
| `Dashboard` | dashboard.dfy | the `main.py` helpers |
| `DayFirst` | dayfirst.dfy | a concrete day-first parser for "DD/MM/YYYY" |
| `Divergence` | divergence.dfy | where the two importers agree and where they differ |

Two behaviours of the code worth noting:

- Manual entry always saves `sets = 1` (main.py:163). It does not save a user-entered count.
- main.py:80 calls `load_data(last_45_days=...)`, but `load_data` in utils.py takes no argument. As written, that call raises TypeError and main.py stops at line 80 before any page is drawn. The `Dashboard` members model the helpers as if the call returned the whole `workouts` table.

Two external functions are parameters of the model:

- **Date parser.** dateutil's `parse(str(cell), dayfirst=True).date()` becomes `DateParser`, a function from cells to optional dates. `None` stands for each failure the importers catch. `RejectsBlank` states that `str(NaN)` never parses.
- **Number parser.** `pd.to_numeric(errors="coerce")` on text becomes `NumberParser`.

`DayFirst` is one concrete date parser. It is used in the examples.

## Model

| member | source | states |
|---|---|---|
| Table.Trunc | utils.py:100 | `int(x)` on a float truncates toward zero, for positive and negative values |
| Fill.FFill | importData.py:25-26 | each filled cell is the nearest non-blank cell at or above it, or blank when there is none |
| Fill.FFillCarries | importData.py:24-26 | a non-blank cell is kept; a blank one copies the filled cell above; a leading blank stays blank; a filled cell is blank iff every cell up to it is blank |
| Fill.FFillFromColumn | utils.py:67-69 | every filled cell is blank or a cell that was already in the column |
| Fill.FFillUnparsed | utils.py:68 | when no WorkoutDate cell parses, and blanks never parse, no forward-filled cell parses either |
| Fill.FFillIdempotent | importData.py:25-26 | forward-filling twice is the same as once |
| Fill.FillColumn | importData.py:25-26 | `df[col] = df[col].ffill()` fills that column and leaves every other column as it was |
| Fill.ResolveDates | importData.py:30-44 | row i's date is the parse of the last parseable WorkoutDate cell among rows 0..i, and None when there is none |
| Fill.ResolveDatesCarries | importData.py:36-44 | a cell that parses gives its own date; one that fails keeps the previous row's date; a leading failure gives None; a date is None iff nothing parsed so far; a Some date comes from a parsed cell |
| Fill.LatestParsedFound | importData.py:30-44 | the last parseable date is None iff no cell parses; otherwise it is the parse of a cell after which none parses |
| ImportScript.FillLabels | importData.py:24-26 | WorkoutID and ExerciseName are forward-filled; WorkoutDate, Reps and WeightKG are untouched |
| ImportScript.CleanRows | importData.py:49-58 | no more cleaned rows than input rows |
| ImportScript.CleanRowsSpec | importData.py:30-58 | the kept row indices increase strictly; row i is kept iff a date is resolved by row i and both numbers are numeric; the k-th output carries its row's resolved date, filled exercise and coerced numbers |
| ImportScript.Catalogue | importData.py:74-75 | the catalogue exists iff every name is text; it is then strictly sorted and holds exactly the names that occur |
| ImportScript.ReplaceFromExcel | importData.py:4-76 | KeyError iff WorkoutID, ExerciseName, Reps or WeightKG is missing, or WorkoutDate is missing and rows exist; otherwise workouts.csv is the cleaned rows in order with sets 1 and no truncation, and exercises.csv is their sorted distinct names when all are text |
| Strings.Sort | utils.py:51 | the result is sorted under Python's string order and is a permutation of the input |
| Strings.SortedDistinct | utils.py:107 | the result is strictly sorted and has exactly the input's values |
| Strings.StrictlySortedUnique | importData.py:74 | two strictly sorted lists with the same members are equal, so any sort of the unique values yields `SortedDistinct` |
| Strings.SortedDistinctIdempotent | utils.py:107 | normalising an already normalised list changes nothing |
| Strings.BelowIsOrder | utils.py:51 | Python's string `<` is irreflexive, transitive and total |
| Backend.ExerciseList | utils.py:45-52 | `get_exercise_list` is sorted and has the same multiset of names as the table |
| Backend.ExerciseListMembers | utils.py:37-38 | a name is in the sorted list iff it is in the table |
| Backend.SaveWorkout | utils.py:23-39 | exactly one workout is appended with the next id; the name is then in `exercises`, which is unchanged if the name was already there and gains it once otherwise |
| Backend.SaveWorkoutValid | utils.py:35 | saving keeps ids increasing and below the next id |
| Backend.SaveWorkoutNoDup | utils.py:37-39 | saving never duplicates an exercise name |
| Backend.DeleteWorkout | utils.py:41-43 | the remaining rows are exactly the rows with another id, in table order; `exercises` and the id counter are unchanged |
| Backend.DeleteWorkoutCount | utils.py:41-43 | with unique ids, deleting an existing id removes exactly one row and deleting an absent id changes nothing |
| Backend.ValidFilter | utils.py:43 | removing rows keeps ids increasing and below the next id |
| Backend.ClearWorkouts | utils.py:92 | `delete().neq("id", -1)` empties `workouts` and leaves `exercises` alone |
| Backend.SaveAll | utils.py:122-123 | saving in turn appends the workouts in order with consecutive ids |
| Backend.SaveAllExercises | utils.py:122-123 | saving in turn keeps the old names as a prefix and appends each new name once; afterwards a name is listed iff it was listed before or a saved workout has it |
| Backend.SaveAllValid | utils.py:122-123 | saving in turn keeps the ids valid |
| Backend.SaveAllNoDup | utils.py:122-123 | saving in turn never duplicates a name |
| Backend.Replicate | utils.py:115-124 | an empty table is an error; no workout on the source date returns failure and changes nothing; otherwise each source workout, in table order, is appended once dated today with the same exercise, sets, reps and weight, the count is reported, and the exercise list gains exactly the copied names it lacked, each once |
| Backend.NoneOnDate | utils.py:118-120 | the source selection is empty iff no workout has the source date |
| Backend.Replicas | utils.py:121-123 | the copies follow the old rows with consecutive ids and today's date; the old names stay a prefix, each missing copied name is appended once, and nothing else is listed |
| Backend.ReplicateValid | utils.py:122-123 | replication keeps the ids valid |
| Importer.RenderCountExample | utils.py:111 | the success message for 42 rows reads "Successfully imported 42 workouts" |
| Importer.MissingColumnsOf | utils.py:61-63 | the missing columns are exactly the required ones the sheet lacks, in required-column order |
| Importer.FillAll | utils.py:67-69 | WorkoutID, WorkoutDate and ExerciseName are forward-filled; Reps and WeightKG are untouched |
| Importer.FillAllColumns | utils.py:67-69 | column by column: WorkoutID, WorkoutDate and ExerciseName are the forward-filled columns, Reps and WeightKG are the sheet's own |
| Importer.SurvivorsCount | utils.py:72-75 | a filled row with both numbers present and numeric occurs among the survivors as often as in the filled sheet, any other row not at all; the survivors keep sheet order |
| Importer.SurvivorsAt | utils.py:72-75 | survivor i is filled sheet row `SurvivorRows[i]`; these row numbers increase strictly, and a sheet row is listed iff its numbers are present and numeric |
| Importer.RowDateFound | utils.py:78-89 | sheet row j gets a date iff some numeric row at or before it has a parseable filled WorkoutDate |
| Importer.SurvivorDateAt | utils.py:72-89 | a survivor's date is the date resolved over the numeric sheet rows up to its own sheet row |
| Importer.CleanRowsSheetOrder | utils.py:72-103 | each cleaned row has one sheet row number; these are in range and increase strictly, so sheet order is kept |
| Importer.ImportedRowWhich | utils.py:67-89 | sheet row j is imported iff its numbers are present and numeric and its resolved date exists |
| Importer.CleanRowsSheetWhich | utils.py:67-89 | sheet row j is imported iff its numbers are present and numeric and some numeric row at or before it has a parseable filled WorkoutDate |
| Importer.ImportedRowAt | utils.py:67-103 | the k-th cleaned row carries its sheet row's resolved date, its filled exercise and the coerced numbers of that row |
| Importer.CleanRowsSheetAt | utils.py:67-103 | for every k, the k-th cleaned row is built from its sheet row's resolved date, filled exercise and coerced Reps and WeightKG |
| Importer.CleanRows | utils.py:72-89 | no more cleaned rows than input rows |
| Importer.CleanRowsOrder | utils.py:78-89 | one survivor position per cleaned row, and the positions increase strictly, so file order is kept |
| Importer.CleanRowsWhich | utils.py:67-89 | survivor i is imported iff a survivor at or before it has a parseable filled date |
| Importer.CleanRowsAt | utils.py:67-89 | the k-th cleaned row carries its survivor's resolved date, filled exercise and coerced numbers |
| Importer.CleanRowsEmpty | utils.py:78-89 | nothing is imported iff no survivor gets a date |
| Importer.TextPrefix | utils.py:95-103 | the length of the longest run of text exercise names at the start |
| Importer.InsertRows | utils.py:95-103 | the insert loop appends the rows up to the first non-text name with consecutive ids; it finishes iff every name is text; `exercises` is untouched |
| Importer.InsertedRows | utils.py:92-103 | after emptying `workouts`, the insert loop leaves exactly one entry per inserted row, in order, with consecutive ids from the next id, sets 1 and truncated reps |
| Importer.ExerciseNames | utils.py:106-109 | the inserted catalogue holds exactly the text exercise names of the cleaned rows |
| Importer.ReplaceAll | utils.py:91-111 | on success `workouts` is exactly the cleaned rows in order, with sets 1 and truncated reps; `exercises` is their strictly sorted distinct names; the count equals the rows inserted, and the id counter advances by that count. On failure the prefix stays inserted, the counter advances by its length, and `exercises` is untouched |
| Importer.ImportExcel | utils.py:54-113 | a missing column gives failure, names exactly the missing columns in order and leaves the store untouched; otherwise the result is the replace-all of the cleaned rows |
| Importer.FilledUndated | utils.py:68 | when no WorkoutDate cell parses, no filled cell parses either |
| Importer.NoDatedSurvivor | utils.py:78-89 | when no numeric row has a parseable date, nothing is imported, whatever the dropped rows say |
| Importer.NoDatesNoRows | utils.py:67-89 | a sheet with no parseable date cleans to nothing |
| Importer.ImportNoDates | utils.py:54-111 | such a sheet imports successfully with count 0 and leaves both tables empty |
| Dashboard.FilteredWorkouts | main.py:67-77 | on a frame without columns, a filter that reads a column fails with KeyError naming it ("exercise" before "workout_date"); otherwise the columns are kept, and a row is shown iff it is in the frame, matches the exercise unless the filter is "All", and lies in the inclusive range when both bounds are given |
| Dashboard.FilteredIsOneFilter | main.py:67-77 | when the filter succeeds, the two masks in turn are one order-preserving filter by that condition |
| Dashboard.FilteredSubseq | main.py:67-77 | the rows shown are an order-preserving subsequence of the frame |
| Dashboard.FilteredIdempotent | main.py:67-77 | filtering a successful result again gives the same result |
| Dashboard.FilteredAll | main.py:70-72 | "All" without both bounds returns the frame unchanged, even one without columns |
| Dashboard.FilteredProgress | main.py:227 | the progress view filters by exercise only; on an empty table it raises KeyError on "exercise" |
| Dashboard.FilteredDay | main.py:98 | today's view (start = end = the day) shows exactly the day's workouts; on an empty table it raises KeyError on "workout_date" |
| Dashboard.HistoryRange | main.py:186-194 | with both ends picked, the history fails iff the frame has no columns, and otherwise shows exactly the rows of the exercise (unless "All") from the first to the second date inclusive; the default range on an empty table is complete, so it fails |
| Dashboard.HistoryHalfRange | main.py:189-194 | a half-picked or cleared range filters as if no dates were given |
| Dashboard.AutocompleteOptions | main.py:24 | no names give ["No exercises found"]; otherwise the options are strictly sorted and hold exactly the names |
| Dashboard.AutocompleteOptionsUnique | main.py:24 | any strictly sorted list of the same names is the option list |
| Dashboard.AutocompleteOptionsIdempotent | main.py:24 | normalising twice is the same as once, placeholder included |
| Dashboard.SelectIndex | main.py:46 | the select box starts at the first occurrence of the default, else at 0 |
| Dashboard.EditDefaultsToNew | main.py:41-54 | editing an unknown exercise starts the select box at 0 and the text box on that name |
| Dashboard.EditDefaultsToExisting | main.py:41-54 | editing a known exercise starts the select box on it and the text box empty |
| Dashboard.Strip | main.py:153 | the result is a slice of the input with only whitespace cut from the ends, and no whitespace at either end |
| Dashboard.StripEmpty | main.py:153-156 | stripping leaves nothing iff the name is all whitespace |
| Dashboard.StripStripped | main.py:153 | a string without whitespace at its ends is its own strip |
| Dashboard.Title | main.py:159 | the CPython scan gives: a character is upper-cased when it starts a word (no letter before it) and lower-cased otherwise; length is kept |
| Dashboard.TitleShape | main.py:159 | title-casing keeps letters letters, keeps whitespace whitespace and leaves other characters alone |
| Dashboard.TitleIdempotent | main.py:159 | title-casing twice is the same as once |
| Dashboard.CleanName | main.py:152-159 | a name is rejected with "Please enter an exercise name" iff it is all whitespace; otherwise the result is non-empty with no whitespace at its ends, and it is a slice `typed[i..j]`, with only whitespace cut off, title-cased: each character is upper-cased when no letter precedes it in the slice, else lower-cased |
| Dashboard.CleanNameIdempotent | main.py:153-159 | a cleaned name passes the check unchanged |
| Dashboard.Submit | main.py:151-166 | a rejected name saves nothing; otherwise the edited id (if any) is deleted first, then exactly one workout with sets 1, the cleaned name and the next id is appended; `exercises` is unchanged if it has the name and gains it once otherwise |
| Dashboard.SubmitCount | main.py:161-163 | submitting keeps ids valid; a new entry adds one row, and an edit of an existing row keeps the count |
| DayFirst.ParseDayFirst | importData.py:37-38 | an accepted string has the DD/MM/YYYY shape and names a real calendar date |
| DayFirst.ParseFormat | importData.py:37-38 | every valid date reads back from its day-first rendering |
| DayFirst.FormatParse | importData.py:37-38 | every accepted string is the rendering of the date it names |
| DayFirst.DayFirstRejectsBlank | importData.py:40-41 | the day-first parser rejects the blank cell |
| DayFirst.DayFirstExamples | importData.py:37-41 | "05/03/2024" is 5 March 2024; 29 February parses only in a leap year; "Chest + Back" is not a date |
| Divergence.ResolveFilledFrom | utils.py:68 | resolving a forward-filled column gives the same dates as the raw column, from any matching carried state |
| Divergence.ResolveFilled | utils.py:68 | the ordinary ffill of WorkoutDate changes no resolved date |
| Divergence.AllSurvive | utils.py:72-75 | when every row is numeric, the numeric filter keeps every filled row |
| Divergence.FilledAgree | utils.py:67-69 | both importers' filled rows agree on exercise, reps and weight |
| Divergence.DatesAgree | utils.py:68 | under a parser that rejects blanks, the filled and the raw WorkoutDate columns resolve to the same dates |
| Divergence.RecordsAgree | utils.py:72-89 | when every row is numeric, the two importers pair every row with the same record |
| Divergence.AllNumericAgree | utils.py:67-89 | when every row is numeric, the two importers clean exactly the same rows |
| Divergence.AnnotatedDiverges | utils.py:72-89 | for a dated row without numbers followed by a numeric annotation row, importData.py keeps the annotation row under the first row's date and utils.py imports nothing |
| Divergence.AnnotatedDivergesDayFirst | utils.py:72-89 | the same divergence with "05/03/2024" read by the day-first parser |
| Divergence.ShiftedDates | utils.py:72-89 | with a numeric dated row, a dated row without numbers and an annotation row, both importers keep the annotation row; importData.py files it under the second date and utils.py under the first |

## Left out

- Streamlit UI, layout, session state, `st.cache_data` caching and reruns. These are framework glue, not logic.
- The Supabase client, credentials and network. The tables are an immutable value, and an insert assigns the next id.
- The row cap of Supabase `select`. Rows are read in table order.
- `load_data`'s conversion of `workout_date` to timestamps. Dates are stored as calendar dates.
- `pd.read_excel` and the `to_csv` writes. The sheet is an input and the written frames are returned values.
- The `print` at the end of importData.py.
- The `__main__` block with its hard-coded path.
- dateutil's parser. It is the `DateParser` parameter, which cannot raise. importData.py does not catch dateutil's OverflowError (for a huge day or year) and would stop.
- pandas' numeric coercion. It is the `NumberParser` parameter.
- Floating point for reps and weights. Both are exact reals, so infinities and NaN in numbers are not modelled.
- The statistics and chart on the progress page.
- `datetime.now()`. Today's date is a parameter of `Backend.Replicate`.
- The 45-day argument main.py:80 passes to `load_data`. utils.py's `load_data` does not accept it, so the call raises TypeError and the dashboard stops at line 80. The `Dashboard` members describe the helpers as if it returned the whole table.
- Network failures part-way through a replace. The only failure modelled is the store rejecting a row whose exercise is not text.
- The widget bounds on reps (1-100) and weight (0-500). Streamlit enforces them, so they are not preconditions.
- Dashboard.Strip, Dashboard.Title and Dashboard.CleanName: whitespace and case are ASCII only, because full Unicode `str.strip`/`str.title` tables are out of scope.
- DayFirst.ParseDayFirst: it accepts a strict subset of what dateutil's `parse(..., dayfirst=True)` accepts, only zero-padded "DD/MM/YYYY", and on that subset it gives the date dateutil gives. dateutil also reads "5/3/2024", "05/03/24", ISO text, and "05/13/2024" month first.
- ImportScript.Catalogue: a name column that is all numbers, all blanks, or numbers mixed with blanks sorts in Python without error, but the model reports no catalogue for it; only text names are catalogued. A column mixing text with numbers or blanks raises TypeError in `sorted` after workouts.csv was written, which the model also reports as no catalogue.
- Importer.ImportExcel: an OverflowError from dateutil in the date loop (utils.py:78-89) is caught by `except Exception` (utils.py:112-113) and returns failure before the delete at utils.py:92, leaving the store untouched; the model's parser cannot raise, so this outcome is not stated.
- Importer.ReplaceAll: a Reps cell "inf" passes `pd.to_numeric` and `dropna`, and `int(inf)` at utils.py:100 raises OverflowError after `workouts` was emptied, so the call fails with the rows before it inserted and `exercises` untouched; reps are exact reals here, so this failure is not stated.
- Importer.ImportExcel: the failure message keeps the prefix "Error importing Excel file: " and drops the exception text, which comes from the client library.
- Importer.InsertRows: a row whose exercise is a number is treated as rejected by the store, like NaN. Postgres might instead coerce it to text.
- Backend.Replicate: the KeyError on an empty table is the `EmptyTable` outcome, not a crash.

=== FILE: backend.dfy ===
/** utils.py, store side: the hosted `workouts` and `exercises` tables as an immutable
    value, and the operations the dashboard performs on them. Every table call becomes a
    pure transition; the network and the client object are not modelled. */
module Backend {
  import opened Seqs
  import opened Strings
  import opened Table

  /** A logged set, as the `workouts` table stores it. */
  datatype Workout = Workout(date: Date, exercise: string, sets: int, reps: int, weight: real)

  /** A stored workout with the id the table assigned to it. */
  datatype Entry = Entry(id: nat, workout: Workout)

  /** Both tables, in insertion order, and the id the next inserted workout receives. */
  datatype Store = Store(workouts: seq<Entry>, exercises: seq<string>, nextId: nat)

  /** Ids grow strictly along the table. */
  predicate IdsIncrease(xs: seq<Entry>) {
    forall i, j :: 0 <= i < j < |xs| ==> xs[i].id < xs[j].id
  }

  /** Ids grow in table order and stay below `nextId`, so they are unique. */
  predicate Valid(s: Store) {
    IdsIncrease(s.workouts) &&
    (forall i :: 0 <= i < |s.workouts| ==> s.workouts[i].id < s.nextId)
  }

  /** `get_exercise_list`: the exercise names, sorted. */
  function ExerciseList(s: Store): (r: seq<string>)
    ensures Sorted(r)
    ensures multiset(r) == multiset(s.exercises)
  {
    Sort(s.exercises)
  }

  lemma ExerciseListMembers(s: Store, name: string)
    ensures name in ExerciseList(s) <==> name in s.exercises
  {
    assert name in multiset(ExerciseList(s)) <==> name in multiset(s.exercises);
  }

  /** A single insert into `workouts`: the row receives the next id. */
  function InsertWorkout(s: Store, w: Workout): Store {
    s.(workouts := s.workouts + [Entry(s.nextId, w)], nextId := s.nextId + 1)
  }

  /** `save_workout`: insert the workout, then add its exercise to `exercises` unless
      the sorted exercise list already has it. */
  function SaveWorkout(s: Store, w: Workout): (r: Store)
    ensures r.workouts == s.workouts + [Entry(s.nextId, w)]
    ensures r.nextId == s.nextId + 1
    ensures w.exercise in r.exercises
    ensures w.exercise in s.exercises ==> r.exercises == s.exercises
    ensures w.exercise !in s.exercises ==> r.exercises == s.exercises + [w.exercise]
  {
    var inserted := InsertWorkout(s, w);
    ExerciseListMembers(inserted, w.exercise);
    if w.exercise !in ExerciseList(inserted) then
      inserted.(exercises := inserted.exercises + [w.exercise])
    else inserted
  }

  lemma SaveWorkoutValid(s: Store, w: Workout)
    requires Valid(s)
    ensures Valid(SaveWorkout(s, w))
  {
  }

  /** Saving never duplicates an exercise name. */
  lemma SaveWorkoutNoDup(s: Store, w: Workout)
    requires NoDup(s.exercises)
    ensures NoDup(SaveWorkout(s, w).exercises)
  {
  }

  function HasId(id: int): Entry -> bool {
    (e: Entry) => e.id == id
  }

  function NotId(id: int): Entry -> bool {
    (e: Entry) => e.id != id
  }

  /** `delete_workout`: `delete().eq("id", id)` removes every row with that id. */
  function DeleteWorkout(s: Store, id: int): (r: Store)
    ensures forall e :: e in r.workouts <==> e in s.workouts && e.id != id
    ensures IsSubseq(r.workouts, s.workouts)
    ensures r.exercises == s.exercises && r.nextId == s.nextId
  {
    FilterIsSubseq(NotId(id), s.workouts);
    s.(workouts := Filter(NotId(id), s.workouts))
  }

  lemma {:induction false} FilterSplitCount(id: int, xs: seq<Entry>)
    ensures |Filter(NotId(id), xs)| + |Filter(HasId(id), xs)| == |xs|
  {
    if xs != [] {
      FilterSplitCount(id, xs[1..]);
    }
  }

  lemma ValidFilter(p: Entry -> bool, s: Store)
    requires Valid(s)
    ensures Valid(s.(workouts := Filter(p, s.workouts)))
  {
    IncreasingFilter(p, s.workouts);
    var r := Filter(p, s.workouts);
    forall i | 0 <= i < |r| ensures r[i].id < s.nextId {
      assert r[i] in s.workouts;
    }
  }

  lemma {:induction false} IncreasingFilter(p: Entry -> bool, xs: seq<Entry>)
    requires IdsIncrease(xs)
    ensures IdsIncrease(Filter(p, xs))
  {
    if xs != [] {
      IncreasingFilter(p, xs[1..]);
      var rest := Filter(p, xs[1..]);
      forall j | 0 <= j < |rest| ensures xs[0].id < rest[j].id {
        assert rest[j] in xs[1..];
      }
      var r := Filter(p, xs);
      assert r == (if p(xs[0]) then [xs[0]] else []) + rest;
      forall i, j | 0 <= i < j < |r| ensures r[i].id < r[j].id {
        if p(xs[0]) && i == 0 {
          assert r[0] == xs[0] && r[j] == rest[j - 1];
        } else if p(xs[0]) {
          assert r[i] == rest[i - 1] && r[j] == rest[j - 1];
        } else {
          assert r[i] == rest[i] && r[j] == rest[j];
        }
      }
    }
  }

  /** Ids that grow along the table select at most one row each. */
  lemma {:induction false} UniqueIdHits(id: int, xs: seq<Entry>)
    requires IdsIncrease(xs)
    ensures |Filter(HasId(id), xs)| <= 1
  {
    if xs != [] {
      if xs[0].id == id {
        assert forall e :: e in xs[1..] ==> e.id > id;
        FilterRejectsAll(HasId(id), xs[1..]);
      } else {
        UniqueIdHits(id, xs[1..]);
      }
    }
  }

  /** With unique ids, deleting an existing id removes exactly one row; deleting an id
      no row has changes nothing. */
  lemma DeleteWorkoutCount(s: Store, id: int)
    requires Valid(s)
    ensures Valid(DeleteWorkout(s, id))
    ensures (exists e :: e in s.workouts && e.id == id) ==> |DeleteWorkout(s, id).workouts| == |s.workouts| - 1
    ensures (forall e :: e in s.workouts ==> e.id != id) ==> DeleteWorkout(s, id) == s
  {
    ValidFilter(NotId(id), s);
    FilterSplitCount(id, s.workouts);
    UniqueIdHits(id, s.workouts);
    if exists e :: e in s.workouts && e.id == id {
      var e :| e in s.workouts && e.id == id;
      assert e in Filter(HasId(id), s.workouts);
    } else {
      FilterKeepsAll(NotId(id), s.workouts);
    }
  }

  /** `delete().neq("id", -1)`: keeps only rows whose id is -1, and no id is, so the
      workouts table ends up empty. */
  function ClearWorkouts(s: Store): (r: Store)
    ensures r.workouts == [] && r.exercises == s.exercises && r.nextId == s.nextId
  {
    FilterRejectsAll(HasId(-1), s.workouts);
    s.(workouts := Filter(HasId(-1), s.workouts))
  }

  /** The `exercises` table after `delete().neq("id", -1)`. */
  function ClearExercises(s: Store): (r: Store)
    ensures r.exercises == [] && r.workouts == s.workouts && r.nextId == s.nextId
  {
    s.(exercises := [])
  }

  /** `ws` as the table stores them when inserted one by one from id `id` on. */
  function Stamped(id: nat, ws: seq<Workout>): (r: seq<Entry>)
    ensures |r| == |ws|
    decreases |ws|
  {
    if ws == [] then [] else [Entry(id, ws[0])] + Stamped(id + 1, ws[1..])
  }

  lemma {:induction false} StampedAt(id: nat, ws: seq<Workout>)
    ensures forall k :: 0 <= k < |ws| ==> Stamped(id, ws)[k] == Entry(id + k, ws[k])
    decreases |ws|
  {
    if ws != [] {
      StampedAt(id + 1, ws[1..]);
      forall k | 1 <= k < |ws| ensures Stamped(id, ws)[k] == Entry(id + k, ws[k]) {
        assert Stamped(id, ws)[k] == Stamped(id + 1, ws[1..])[k - 1];
        assert ws[1..][k - 1] == ws[k];
      }
    }
  }

  lemma AppendStamped(prefix: seq<Entry>, id: nat, ws: seq<Workout>)
    requires ws != []
    ensures (prefix + [Entry(id, ws[0])]) + Stamped(id + 1, ws[1..]) == prefix + Stamped(id, ws)
  {
    assert Stamped(id, ws) == [Entry(id, ws[0])] + Stamped(id + 1, ws[1..]);
  }

  /** `save_workout` for each workout in turn: the workouts are appended in order with
      consecutive ids. */
  function SaveAll(s: Store, ws: seq<Workout>): (r: Store)
    ensures r.workouts == s.workouts + Stamped(s.nextId, ws)
    ensures r.nextId == s.nextId + |ws|
    decreases |ws|
  {
    if ws == [] then s
    else
      AppendStamped(s.workouts, s.nextId, ws);
      SaveAll(SaveWorkout(s, ws[0]), ws[1..])
  }

  /** `after` is `before` with new names appended, each once: `before` stays as a prefix,
      and every appended name differs from every other name of `after`. */
  predicate AppendsNew(before: seq<string>, after: seq<string>) {
    |before| <= |after| && after[..|before|] == before &&
    forall i, j :: |before| <= i < |after| && 0 <= j < |after| && i != j ==> after[i] != after[j]
  }

  lemma AppendsNewTrans(a: seq<string>, b: seq<string>, c: seq<string>)
    requires AppendsNew(a, b) && AppendsNew(b, c)
    ensures AppendsNew(a, c)
  {
    assert c[..|a|] == c[..|b|][..|a|];
    forall i, j | |a| <= i < |c| && 0 <= j < |c| && i != j ensures c[i] != c[j] {
      if i < |b| && j < |b| {
        assert c[i] == c[..|b|][i] && c[j] == c[..|b|][j];
      }
    }
  }

  /** One save appends the exercise iff it is new. */
  lemma SaveWorkoutNames(s: Store, w: Workout)
    ensures AppendsNew(s.exercises, SaveWorkout(s, w).exercises)
    ensures forall x :: x in SaveWorkout(s, w).exercises <==> x in s.exercises || x == w.exercise
  {
    assert SaveWorkout(s, w).exercises[..|s.exercises|] == s.exercises;
  }

  lemma SavedNameStep(ws: seq<Workout>, x: string)
    requires ws != []
    ensures (exists k :: 0 <= k < |ws| && ws[k].exercise == x) <==>
      ws[0].exercise == x || exists k :: 0 <= k < |ws[1..]| && ws[1..][k].exercise == x
  {
    if exists k :: 0 <= k < |ws[1..]| && ws[1..][k].exercise == x {
      var k :| 0 <= k < |ws[1..]| && ws[1..][k].exercise == x;
      assert ws[k + 1].exercise == x;
    }
    if exists k :: 0 <= k < |ws| && ws[k].exercise == x {
      var k :| 0 <= k < |ws| && ws[k].exercise == x;
      if k > 0 { assert ws[1..][k - 1].exercise == x; }
    }
  }

  /** Saving in turn keeps the old names as a prefix and appends each new exercise once:
      afterwards a name is listed iff it was listed before or one of `ws` has it. */
  lemma {:induction false} SaveAllExercises(s: Store, ws: seq<Workout>)
    ensures AppendsNew(s.exercises, SaveAll(s, ws).exercises)
    ensures forall x :: x in SaveAll(s, ws).exercises <==>
      x in s.exercises || exists k :: 0 <= k < |ws| && ws[k].exercise == x
    decreases |ws|
  {
    var r := SaveAll(s, ws).exercises;
    if ws == [] {
      assert r[..|s.exercises|] == s.exercises;
    } else {
      var next := SaveWorkout(s, ws[0]);
      assert r == SaveAll(next, ws[1..]).exercises;
      SaveAllExercises(next, ws[1..]);
      SaveWorkoutNames(s, ws[0]);
      AppendsNewTrans(s.exercises, next.exercises, r);
      forall x ensures x in r <==> x in s.exercises || exists k :: 0 <= k < |ws| && ws[k].exercise == x {
        SavedNameStep(ws, x);
      }
    }
  }

  lemma {:induction false} SaveAllValid(s: Store, ws: seq<Workout>)
    requires Valid(s)
    ensures Valid(SaveAll(s, ws))
    decreases |ws|
  {
    if ws != [] {
      SaveWorkoutValid(s, ws[0]);
      SaveAllValid(SaveWorkout(s, ws[0]), ws[1..]);
    }
  }

  lemma {:induction false} SaveAllNoDup(s: Store, ws: seq<Workout>)
    requires NoDup(s.exercises)
    ensures NoDup(SaveAll(s, ws).exercises)
    decreases |ws|
  {
    if ws != [] {
      SaveWorkoutNoDup(s, ws[0]);
      SaveAllNoDup(SaveWorkout(s, ws[0]), ws[1..]);
    }
  }

  /** How `replicate_day_workouts` ends: copies made, nothing on that date, or the
      KeyError that `load_data`'s column-less frame raises when the table is empty. */
  datatype Replication = Replicated(store: Store, count: nat) | NothingOnDate | EmptyTable

  function OnDate(d: Date): Entry -> bool {
    (e: Entry) => e.workout.date == d
  }

  function DatedToday(today: Date): Entry -> Workout {
    (e: Entry) => e.workout.(date := today)
  }

  /** `replicate_day_workouts`: every workout of `source`, in table order, saved again
      dated `today` with the same exercise, sets, reps and weight. */
  function Replicate(s: Store, source: Date, today: Date): (r: Replication)
    ensures r.EmptyTable? <==> s.workouts == []
    ensures r.NothingOnDate? <==> s.workouts != [] && forall e :: e in s.workouts ==> e.workout.date != source
    ensures r.Replicated? ==>
      var src := Filter(OnDate(source), s.workouts);
      r.count == |src| > 0 &&
      r.store.workouts == s.workouts + Stamped(s.nextId, Map(DatedToday(today), src)) &&
      (forall k :: 0 <= k < r.count ==>
        r.store.workouts[|s.workouts| + k] == Entry(s.nextId + k, src[k].workout.(date := today))) &&
      AppendsNew(s.exercises, r.store.exercises) &&
      (forall x :: x in r.store.exercises <==>
        x in s.exercises || exists k :: 0 <= k < r.count && src[k].workout.exercise == x)
  {
    if s.workouts == [] then EmptyTable
    else
      var src := Filter(OnDate(source), s.workouts);
      NoneOnDate(s.workouts, source);
      if src == [] then NothingOnDate
      else
        Replicas(s, src, today);
        Replicated(SaveAll(s, Map(DatedToday(today), src)), |src|)
  }

  lemma NoneOnDate(ws: seq<Entry>, d: Date)
    ensures Filter(OnDate(d), ws) == [] <==> forall e :: e in ws ==> e.workout.date != d
  {
    var src := Filter(OnDate(d), ws);
    if src != [] {
      assert src[0] in ws;
    }
  }

  /** Saving copies of `src` dated `today`: they follow the old rows with consecutive
      ids, and the exercise list gains exactly the copied names it lacked, each once. */
  lemma Replicas(s: Store, src: seq<Entry>, today: Date)
    ensures var r := SaveAll(s, Map(DatedToday(today), src));
      (forall k :: 0 <= k < |src| ==>
        r.workouts[|s.workouts| + k] == Entry(s.nextId + k, src[k].workout.(date := today))) &&
      AppendsNew(s.exercises, r.exercises) &&
      (forall x :: x in r.exercises <==> x in s.exercises || exists k :: 0 <= k < |src| && src[k].workout.exercise == x)
  {
    var ws := Map(DatedToday(today), src);
    var r := SaveAll(s, ws);
    SaveAllExercises(s, ws);
    StampedAt(s.nextId, ws);
    forall x ensures x in r.exercises <==> x in s.exercises || exists k :: 0 <= k < |src| && src[k].workout.exercise == x {
      if exists k :: 0 <= k < |ws| && ws[k].exercise == x {
        var k :| 0 <= k < |ws| && ws[k].exercise == x;
        assert src[k].workout.exercise == x;
      }
      if exists k :: 0 <= k < |src| && src[k].workout.exercise == x {
        var k :| 0 <= k < |src| && src[k].workout.exercise == x;
        assert ws[k].exercise == x;
      }
    }
  }

  lemma ReplicateValid(s: Store, source: Date, today: Date)
    requires Valid(s)
    requires Replicate(s, source, today).Replicated?
    ensures Valid(Replicate(s, source, today).store)
  {
    SaveAllValid(s, Map(DatedToday(today), Filter(OnDate(source), s.workouts)));
  }
}

=== FILE: dashboard.dfy ===
/** main.py: the pure pieces of the dashboard. The history filter, the option list of the
    exercise picker, and the manual-entry submit handler with its name cleaning. */
module Dashboard {
  import opened Wrappers
  import opened Seqs
  import opened Strings
  import opened Table
  import opened Backend

  // ---------------------------------------------------------------------------
  // get_filtered_workouts

  /** Whether the history filter keeps `e`: the exercise must match unless the filter is
      "All", and the date must lie in the inclusive range when both bounds are given. */
  predicate Shown(e: Entry, exercise: string, start: Option<Date>, end: Option<Date>) {
    (exercise != "All" ==> e.workout.exercise == exercise) &&
    (start.Some? && end.Some? ==> DateLe(start.value, e.workout.date) && DateLe(e.workout.date, end.value))
  }

  function Shows(exercise: string, start: Option<Date>, end: Option<Date>): Entry -> bool {
    (e: Entry) => Shown(e, exercise, start, end)
  }

  function ExerciseIs(name: string): Entry -> bool {
    (e: Entry) => e.workout.exercise == name
  }

  function Within(lo: Date, hi: Date): Entry -> bool {
    (e: Entry) => DateLe(lo, e.workout.date) && DateLe(e.workout.date, hi)
  }

  /** A pandas frame of workouts. `load_data` builds it from the table's rows, and on an
      empty table it has no columns at all, so reading a column raises KeyError. */
  datatype Frame = Frame(columns: bool, rows: seq<Entry>)

  /** `load_data()`: the frame has columns iff the table has a row. */
  function Loaded(ws: seq<Entry>): Frame {
    Frame(ws != [], ws)
  }

  /** Whether the filter reads a column: the exercise mask, or the date mask when both
      bounds are given. */
  predicate Masks(exercise: string, start: Option<Date>, end: Option<Date>) {
    exercise != "All" || (start.Some? && end.Some?)
  }

  /** The two masks on the rows: the exercise mask first, then the date mask. */
  function Masked(ws: seq<Entry>, exercise: string, start: Option<Date>, end: Option<Date>): seq<Entry> {
    var byName := if exercise != "All" then Filter(ExerciseIs(exercise), ws) else ws;
    if start.Some? && end.Some? then Filter(Within(start.value, end.value), byName) else byName
  }

  /** `get_filtered_workouts`. On a frame without columns the first mask fails with a
      KeyError naming the column it reads; an unmasked frame is returned as it is. */
  function FilteredWorkouts(f: Frame, exercise: string, start: Option<Date>, end: Option<Date>): (r: Result<Frame, string>)
    ensures r.Failure? <==> !f.columns && Masks(exercise, start, end)
    ensures r.Failure? ==> r.error == if exercise != "All" then "exercise" else "workout_date"
    ensures r.Success? ==> r.value.columns == f.columns && |r.value.rows| <= |f.rows|
    ensures r.Success? ==> forall e :: e in r.value.rows <==> e in f.rows && Shown(e, exercise, start, end)
  {
    if !f.columns && Masks(exercise, start, end) then
      Failure(if exercise != "All" then "exercise" else "workout_date")
    else
      Success(Frame(f.columns, Masked(f.rows, exercise, start, end)))
  }

  /** The two masks together are one order-preserving filter by `Shown`. */
  lemma FilteredIsOneFilter(f: Frame, exercise: string, start: Option<Date>, end: Option<Date>)
    ensures var r := FilteredWorkouts(f, exercise, start, end);
      r.Success? ==> r.value.rows == Filter(Shows(exercise, start, end), f.rows)
  {
    var ws := f.rows;
    var shows := Shows(exercise, start, end);
    if exercise != "All" && start.Some? && end.Some? {
      var within := Within(start.value, end.value);
      FilterCompose(ExerciseIs(exercise), within, ws);
      FilterAgree(Both(ExerciseIs(exercise), within), shows, ws);
    } else if exercise != "All" {
      FilterAgree(ExerciseIs(exercise), shows, ws);
    } else if start.Some? && end.Some? {
      FilterAgree(Within(start.value, end.value), shows, ws);
    } else {
      FilterKeepsAll(shows, ws);
    }
  }

  /** The history keeps table order: its rows are a subsequence of the table. */
  lemma FilteredSubseq(f: Frame, exercise: string, start: Option<Date>, end: Option<Date>)
    ensures var r := FilteredWorkouts(f, exercise, start, end);
      r.Success? ==> IsSubseq(r.value.rows, f.rows)
  {
    FilteredIsOneFilter(f, exercise, start, end);
    FilterIsSubseq(Shows(exercise, start, end), f.rows);
  }

  lemma FilteredIdempotent(f: Frame, exercise: string, start: Option<Date>, end: Option<Date>)
    ensures var once := FilteredWorkouts(f, exercise, start, end);
      once.Success? ==> FilteredWorkouts(once.value, exercise, start, end) == once
  {
    var once := FilteredWorkouts(f, exercise, start, end);
    if once.Success? {
      FilteredIsOneFilter(f, exercise, start, end);
      FilteredIsOneFilter(once.value, exercise, start, end);
      FilterIdempotent(Shows(exercise, start, end), f.rows);
    }
  }

  /** "All" without a complete date range shows the whole frame, with or without columns. */
  lemma FilteredAll(f: Frame, start: Option<Date>, end: Option<Date>)
    requires start.None? || end.None?
    ensures FilteredWorkouts(f, "All", start, end) == Success(f)
  {
  }

  /** The progress chart: one exercise over all dates. An empty table raises KeyError on
      the `exercise` column. */
  lemma FilteredProgress(ws: seq<Entry>, exercise: string)
    requires exercise != "All"
    ensures FilteredWorkouts(Loaded(ws), exercise, None, None) ==
      if ws == [] then Failure("exercise") else Success(Frame(true, Filter(ExerciseIs(exercise), ws)))
  {
  }

  /** Today's view (start and end both the selected day) is exactly the day's workouts.
      An empty table raises KeyError on the `workout_date` column. */
  lemma {:induction false} FilteredDay(ws: seq<Entry>, d: Date)
    ensures FilteredWorkouts(Loaded(ws), "All", Some(d), Some(d)) ==
      if ws == [] then Failure("workout_date") else Success(Frame(true, Filter(OnDate(d), ws)))
  {
    forall e | e in ws ensures Within(d, d)(e) == OnDate(d)(e) {
      if Within(d, d)(e) {
        DateLeAntisymmetric(d, e.workout.date);
      }
    }
    FilterAgree(Within(d, d), OnDate(d), ws);
  }

  /** The bounds the history page passes for a date picker holding `picked`: a range
      still being picked (one date) or cleared (none) leaves a bound missing. */
  function HistoryBounds(picked: seq<Date>): (r: (Option<Date>, Option<Date>))
    ensures r.0.Some? <==> |picked| > 0
    ensures r.1.Some? <==> |picked| > 1
    ensures r.0.Some? ==> r.0.value == picked[0]
    ensures r.1.Some? ==> r.1.value == picked[1]
  {
    (if |picked| > 0 then Some(picked[0]) else None, if |picked| > 1 then Some(picked[1]) else None)
  }

  /** A range with both ends picked filters by the inclusive range from the first to the
      second date. On an empty table it raises KeyError, and the picker's default range
      (today to today) is complete, so an empty history page always does. */
  lemma HistoryRange(f: Frame, exercise: string, picked: seq<Date>)
    requires |picked| >= 2
    ensures var b := HistoryBounds(picked);
      var r := FilteredWorkouts(f, exercise, b.0, b.1);
      (r.Failure? <==> !f.columns) &&
      (r.Success? ==> forall e :: e in r.value.rows <==>
        e in f.rows && (exercise != "All" ==> e.workout.exercise == exercise) &&
        DateLe(picked[0], e.workout.date) && DateLe(e.workout.date, picked[1]))
  {
  }

  /** A half-picked or cleared range does not filter by date at all. */
  lemma HistoryHalfRange(f: Frame, exercise: string, picked: seq<Date>)
    requires |picked| < 2
    ensures var b := HistoryBounds(picked);
      FilteredWorkouts(f, exercise, b.0, b.1) == FilteredWorkouts(f, exercise, None, None)
  {
  }

  // ---------------------------------------------------------------------------
  // custom_autocomplete

  const NoExercises: string := "No exercises found"

  /** The picker's options: the distinct names in ascending order, or a single
      placeholder when there are none. */
  function AutocompleteOptions(options: seq<string>): (r: seq<string>)
    ensures options == [] ==> r == [NoExercises]
    ensures options != [] ==> StrictlySorted(r) && forall s :: s in r <==> s in options
    ensures r != []
  {
    if options == [] then [NoExercises]
    else
      assert options[0] in SortedDistinct(options);
      SortedDistinct(options)
  }

  /** Any strictly sorted list of the same names is the option list. */
  lemma AutocompleteOptionsUnique(options: seq<string>, other: seq<string>)
    requires options != []
    requires StrictlySorted(other) && forall s :: s in other <==> s in options
    ensures AutocompleteOptions(options) == other
  {
    StrictlySortedUnique(AutocompleteOptions(options), other);
  }

  /** Normalising an option list a second time changes nothing, placeholder included. */
  lemma AutocompleteOptionsIdempotent(options: seq<string>)
    ensures AutocompleteOptions(AutocompleteOptions(options)) == AutocompleteOptions(options)
  {
    var once := AutocompleteOptions(options);
    StrictlySortedUnique(AutocompleteOptions(once), once);
  }

  /** The select box's starting position: the first occurrence of `default`, else 0. */
  function SelectIndex(options: seq<string>, default: string): (i: nat)
    ensures default in options ==>
      i < |options| && options[i] == default && (forall j :: 0 <= j < i ==> options[j] != default)
    ensures default !in options ==> i == 0
  {
    if options == [] || default !in options then 0
    else if options[0] == default then 0
    else
      assert default in options[1..];
      1 + SelectIndex(options[1..], default)
  }

  /** The text box's starting value: `default` when it is a new name, else empty. */
  function TextDefault(options: seq<string>, default: string): (r: string)
    ensures default !in options ==> r == default
    ensures default in options ==> r == []
  {
    if default !in options then default else ""
  }

  /** When an edited workout's exercise is a known name, the select box starts on it and
      the text box starts empty. */
  lemma EditDefaultsToExisting(known: seq<string>, default: string)
    requires default in known
    ensures var options := AutocompleteOptions(known);
      options[SelectIndex(options, default)] == default && TextDefault(options, default) == ""
  {
  }

  /** Editing a workout whose exercise is not a known name (nor the placeholder) starts the
      select box at the top and the text box on that name. */
  lemma EditDefaultsToNew(known: seq<string>, default: string)
    requires default !in known && default != NoExercises
    ensures var options := AutocompleteOptions(known);
      SelectIndex(options, default) == 0 && TextDefault(options, default) == default
  {
  }

  // ---------------------------------------------------------------------------
  // Exercise-name cleaning: str.strip() and str.title() on ASCII

  /** The ASCII characters Python's `str.isspace` accepts: space, tab, line feed,
      vertical tab, form feed, carriage return (9-13) and the separators 28-31. */
  predicate IsSpace(c: char) {
    c == ' ' || 9 <= c as int <= 13 || 28 <= c as int <= 31
  }

  predicate AllSpace(s: string) {
    forall i :: 0 <= i < |s| ==> IsSpace(s[i])
  }

  /** The number of whitespace characters `s` starts with. */
  function LeadingSpaces(s: string): (n: nat)
    ensures n <= |s|
    ensures forall k :: 0 <= k < n ==> IsSpace(s[k])
    ensures n < |s| ==> !IsSpace(s[n])
  {
    if s == [] || !IsSpace(s[0]) then 0 else 1 + LeadingSpaces(s[1..])
  }

  /** The number of whitespace characters `s` ends with. */
  function TrailingSpaces(s: string): (n: nat)
    ensures n <= |s|
    ensures forall k :: |s| - n <= k < |s| ==> IsSpace(s[k])
    ensures n < |s| ==> !IsSpace(s[|s| - n - 1])
  {
    if s == [] || !IsSpace(s[|s| - 1]) then 0 else 1 + TrailingSpaces(s[..|s| - 1])
  }

  /** `str.strip()`: the middle of `s` once the whitespace at both ends is cut off. */
  function Strip(s: string): (r: string)
    ensures exists i, j :: 0 <= i <= j <= |s| && r == s[i..j] && AllSpace(s[..i]) && AllSpace(s[j..])
    ensures r == [] || (!IsSpace(r[0]) && !IsSpace(r[|r| - 1]))
  {
    var i := LeadingSpaces(s);
    var rest := s[i..];
    var t := TrailingSpaces(rest);
    var j := i + |rest| - t;
    assert AllSpace(s[..i]);
    assert AllSpace(s[j..]) by {
      forall k | 0 <= k < |s| - j ensures IsSpace(s[j..][k]) {
        assert s[j..][k] == rest[|rest| - t + k];
      }
    }
    assert rest[..|rest| - t] == s[i..j];
    rest[..|rest| - t]
  }

  /** Strip leaves nothing exactly when the text is all whitespace. */
  lemma StripEmpty(s: string)
    ensures Strip(s) == [] <==> AllSpace(s)
  {
    var i, j :| 0 <= i <= j <= |s| && Strip(s) == s[i..j] && AllSpace(s[..i]) && AllSpace(s[j..]);
    if Strip(s) == [] {
      forall k | 0 <= k < |s| ensures IsSpace(s[k]) {
        if k < i { assert s[..i][k] == s[k]; } else { assert s[j..][k - j] == s[k]; }
      }
    } else {
      assert s[i] == Strip(s)[0];
    }
  }

  /** A string with no whitespace at either end is its own strip. */
  lemma {:induction false} StripStripped(s: string)
    requires s == [] || (!IsSpace(s[0]) && !IsSpace(s[|s| - 1]))
    ensures Strip(s) == s
  {
    if s != [] {
      assert LeadingSpaces(s) == 0;
      assert s[0..] == s;
      assert TrailingSpaces(s) == 0;
    }
  }

  predicate IsUpper(c: char) { 'A' <= c <= 'Z' }
  predicate IsLower(c: char) { 'a' <= c <= 'z' }
  predicate IsLetter(c: char) { IsUpper(c) || IsLower(c) }

  function Upper(c: char): char {
    if IsLower(c) then (c as int - 32) as char else c
  }

  function Lower(c: char): char {
    if IsUpper(c) then (c as int + 32) as char else c
  }

  /** Position `i` starts a word for `str.title()`: no letter immediately before it. */
  predicate StartsWord(s: string, i: nat)
    requires i < |s|
  {
    i == 0 || !IsLetter(s[i - 1])
  }

  /** `str.title()` as CPython computes it, one character at a time, remembering whether
      the previous character was cased. */
  function TitleFrom(prevCased: bool, s: string): (r: string)
    ensures |r| == |s|
    decreases s
  {
    if s == [] then []
    else [if prevCased then Lower(s[0]) else Upper(s[0])] + TitleFrom(IsLetter(s[0]), s[1..])
  }

  function Title(s: string): (r: string)
    ensures |r| == |s|
    ensures forall i :: 0 <= i < |s| ==> r[i] == if StartsWord(s, i) then Upper(s[i]) else Lower(s[i])
  {
    TitleFromSpec(false, s);
    TitleFrom(false, s)
  }

  lemma {:induction false} TitleFromSpec(prevCased: bool, s: string)
    ensures forall i :: 0 <= i < |s| ==>
      TitleFrom(prevCased, s)[i] ==
        if (if i == 0 then prevCased else IsLetter(s[i - 1])) then Lower(s[i]) else Upper(s[i])
    decreases s
  {
    if s != [] {
      TitleFromSpec(IsLetter(s[0]), s[1..]);
      assert TitleFrom(prevCased, s)[0] == if prevCased then Lower(s[0]) else Upper(s[0]);
      forall i | 1 <= i < |s|
        ensures TitleFrom(prevCased, s)[i] == if IsLetter(s[i - 1]) then Lower(s[i]) else Upper(s[i])
      {
        assert TitleFrom(prevCased, s)[i] == TitleFrom(IsLetter(s[0]), s[1..])[i - 1];
        assert s[1..][i - 1] == s[i];
        if i > 1 { assert s[1..][i - 2] == s[i - 1]; }
      }
    }
  }

  /** Title-casing keeps letters letters and changes nothing else. */
  lemma TitleShape(s: string)
    ensures forall i :: 0 <= i < |s| ==> (IsLetter(Title(s)[i]) <==> IsLetter(s[i]))
    ensures forall i :: 0 <= i < |s| && !IsLetter(s[i]) ==> Title(s)[i] == s[i]
    ensures forall i :: 0 <= i < |s| ==> (IsSpace(Title(s)[i]) <==> IsSpace(s[i]))
  {
  }

  lemma TitleIdempotent(s: string)
    ensures Title(Title(s)) == Title(s)
  {
    var t := Title(s);
    TitleShape(s);
    forall i | 0 <= i < |s| ensures Title(t)[i] == t[i] {
      assert StartsWord(t, i) == StartsWord(s, i);
    }
  }

  /** The strip cuts whitespace ends `i` and `j` off `s`, and title-casing then works on
      the slice between them. */
  predicate TitledSlice(s: string, i: nat, j: nat, r: string) {
    i <= j <= |s| && AllSpace(s[..i]) && AllSpace(s[j..]) && |r| == j - i &&
    forall k :: 0 <= k < j - i ==> r[k] == if StartsWord(s[i..j], k) then Upper(s[i + k]) else Lower(s[i + k])
  }

  lemma StripTitled(s: string)
    ensures exists i: nat, j: nat :: TitledSlice(s, i, j, Title(Strip(s)))
  {
    var i, j :| 0 <= i <= j <= |s| && Strip(s) == s[i..j] && AllSpace(s[..i]) && AllSpace(s[j..]);
    var t := Strip(s);
    forall k | 0 <= k < j - i
      ensures Title(t)[k] == if StartsWord(s[i..j], k) then Upper(s[i + k]) else Lower(s[i + k])
    {
      assert t[k] == s[i + k];
    }
    assert TitledSlice(s, i, j, Title(t));
  }

  /** The name check of the submit handler: empty after stripping is rejected, anything
      else is stripped and title-cased. */
  function CleanName(typed: string): (r: Result<string, string>)
    ensures r.Failure? <==> AllSpace(typed)
    ensures r.Failure? ==> r.error == "Please enter an exercise name"
    ensures r.Success? ==> r.value != [] && !IsSpace(r.value[0]) && !IsSpace(r.value[|r.value| - 1])
    ensures r.Success? ==> |r.value| <= |typed|
    ensures r.Success? ==> exists i: nat, j: nat :: TitledSlice(typed, i, j, r.value)
  {
    StripEmpty(typed);
    var stripped := Strip(typed);
    if stripped == [] then Failure("Please enter an exercise name")
    else
      TitleShape(stripped);
      StripTitled(typed);
      Success(Title(stripped))
  }

  /** A cleaned name passes the check unchanged. */
  lemma CleanNameIdempotent(typed: string)
    requires CleanName(typed).Success?
    ensures CleanName(CleanName(typed).value) == CleanName(typed)
  {
    var v := CleanName(typed).value;
    var stripped := Strip(typed);
    StripEmpty(typed);
    TitleShape(stripped);
    StripStripped(stripped);
    StripStripped(v);
    StripEmpty(v);
    TitleIdempotent(stripped);
  }

  // ---------------------------------------------------------------------------
  // The submit handler

  /** Saving the form: clean the name, delete the workout being edited (if any), then
      save one set of `reps` at `weight` on `date`. A rejected name saves nothing. */
  function Submit(s: Store, date: Date, typed: string, reps: int, weight: real, editing: Option<nat>): (r: Result<Store, string>)
    ensures r.Failure? <==> CleanName(typed).Failure?
    ensures r.Success? ==>
      var kept := if editing.Some? then Filter(NotId(editing.value), s.workouts) else s.workouts;
      r.value.workouts == kept + [Entry(s.nextId, Workout(date, CleanName(typed).value, 1, reps, weight))] &&
      r.value.nextId == s.nextId + 1 &&
      (CleanName(typed).value in s.exercises ==> r.value.exercises == s.exercises) &&
      (CleanName(typed).value !in s.exercises ==> r.value.exercises == s.exercises + [CleanName(typed).value])
  {
    match CleanName(typed)
    case Failure(e) => Failure(e)
    case Success(name) =>
      var base := if editing.Some? then DeleteWorkout(s, editing.value) else s;
      Success(SaveWorkout(base, Workout(date, name, 1, reps, weight)))
  }

  /** Submitting a name that is not all whitespace keeps the store valid; a new entry adds
      one workout, and an edit of an existing workout replaces it, leaving the count
      unchanged. */
  lemma SubmitCount(s: Store, date: Date, typed: string, reps: int, weight: real, editing: Option<nat>)
    requires Valid(s)
    requires !AllSpace(typed)
    ensures var r := Submit(s, date, typed, reps, weight, editing).value;
      Valid(r) &&
      |r.workouts| == |s.workouts| + 1 - (if editing.Some? && (exists e :: e in s.workouts && e.id == editing.value) then 1 else 0)
  {
    var w := Workout(date, CleanName(typed).value, 1, reps, weight);
    var base := if editing.Some? then DeleteWorkout(s, editing.value) else s;
    if editing.Some? {
      DeleteWorkoutCount(s, editing.value);
    }
    SaveWorkoutValid(base, w);
  }
}

=== FILE: dayfirst.dfy ===
/** The one date form the import comment names, read day first: "DD/MM/YYYY". This is a
    concrete instance of the date parser the importers take as a parameter; it accepts
    exactly the zero-padded form with a real calendar date and rejects everything else.
    dateutil accepts more (single-digit fields, two-digit years, a month-first reading
    when the middle field exceeds 12, ISO text) and reads the accepted form the same way. */
module DayFirst {
  import opened Wrappers
  import opened Table

  predicate IsDigit(c: char) { '0' <= c <= '9' }

  function DigitValue(c: char): nat
    requires IsDigit(c)
  {
    c as int - '0' as int
  }

  function DigitChar(n: nat): (c: char)
    requires n < 10
    ensures IsDigit(c) && DigitValue(c) == n
  {
    ('0' as int + n) as char
  }

  predicate LeapYear(y: int) {
    (y % 4 == 0 && y % 100 != 0) || y % 400 == 0
  }

  function DaysInMonth(y: int, m: int): nat
    requires 1 <= m <= 12
  {
    if m == 2 then (if LeapYear(y) then 29 else 28)
    else if m == 4 || m == 6 || m == 9 || m == 11 then 30
    else 31
  }

  /** A date Python's `datetime.date` accepts with a four-digit year. */
  predicate ValidDate(d: Date) {
    1 <= d.year <= 9999 && 1 <= d.month <= 12 && 1 <= d.day <= DaysInMonth(d.year, d.month)
  }

  /** `n` followed by the digit `c`, read as a decimal number. */
  function Digits(n: nat, c: char): nat
    requires IsDigit(c)
  {
    10 * n + DigitValue(c)
  }

  lemma DigitsSplit(n: nat, c: char)
    requires IsDigit(c)
    ensures Digits(n, c) / 10 == n && Digits(n, c) % 10 == DigitValue(c)
  {
  }

  lemma Split(n: nat)
    ensures n == 10 * (n / 10) + n % 10
  {
  }

  predicate DayFirstShape(s: string) {
    |s| == 10 && s[2] == '/' && s[5] == '/' &&
    IsDigit(s[0]) && IsDigit(s[1]) && IsDigit(s[3]) && IsDigit(s[4]) &&
    IsDigit(s[6]) && IsDigit(s[7]) && IsDigit(s[8]) && IsDigit(s[9])
  }

  /** "DD/MM/YYYY" read day first; a well-formed string naming no real date (the 31st of
      February, month 13) is rejected like any other unparseable text. */
  function ParseDayFirst(s: string): (r: Option<Date>)
    ensures r.Some? ==> DayFirstShape(s) && ValidDate(r.value)
  {
    if !DayFirstShape(s) then None
    else
      var d := Date(Digits(Digits(Digits(DigitValue(s[6]), s[7]), s[8]), s[9]),
                    Digits(DigitValue(s[3]), s[4]),
                    Digits(DigitValue(s[0]), s[1]));
      if ValidDate(d) then Some(d) else None
  }

  /** A valid date written "DD/MM/YYYY", zero-padded. */
  function Format(d: Date): (s: string)
    requires ValidDate(d)
    ensures |s| == 10
  {
    [DigitChar(d.day / 10), DigitChar(d.day % 10), '/',
     DigitChar(d.month / 10), DigitChar(d.month % 10), '/',
     DigitChar(d.year / 10 / 10 / 10), DigitChar(d.year / 10 / 10 % 10), DigitChar(d.year / 10 % 10), DigitChar(d.year % 10)]
  }

  /** Every valid date reads back from its day-first rendering. */
  lemma ParseFormat(d: Date)
    requires ValidDate(d)
    ensures ParseDayFirst(Format(d)) == Some(d)
  {
    var s := Format(d);
    assert d.year / 10 / 10 / 10 < 10;
    Split(d.day);
    Split(d.month);
    Split(d.year);
    Split(d.year / 10);
    Split(d.year / 10 / 10);
    assert Digits(DigitValue(s[0]), s[1]) == d.day;
    assert Digits(DigitValue(s[3]), s[4]) == d.month;
    assert Digits(Digits(Digits(DigitValue(s[6]), s[7]), s[8]), s[9]) == d.year;
  }

  /** Every accepted string is the rendering of the date it names. */
  lemma FormatParse(s: string)
    requires ParseDayFirst(s).Some?
    ensures Format(ParseDayFirst(s).value) == s
  {
    var d := ParseDayFirst(s).value;
    DigitsSplit(DigitValue(s[0]), s[1]);
    DigitsSplit(DigitValue(s[3]), s[4]);
    var y1 := Digits(DigitValue(s[6]), s[7]);
    var y2 := Digits(y1, s[8]);
    DigitsSplit(DigitValue(s[6]), s[7]);
    DigitsSplit(y1, s[8]);
    DigitsSplit(y2, s[9]);
    forall i | 0 <= i < 10 ensures Format(d)[i] == s[i] {
      if IsDigit(s[i]) {
        assert DigitChar(DigitValue(s[i])) == s[i];
      }
    }
  }

  /** The day-first reading of a cell: only text is parsed, so a blank cell never is. */
  function DayFirstCell(c: Cell): (r: Option<Date>)
    ensures c.Text? ==> r == ParseDayFirst(c.s)
    ensures !c.Text? ==> r.None?
  {
    if c.Text? then ParseDayFirst(c.s) else None
  }

  function DayFirstParser(): DateParser {
    DayFirstCell
  }

  lemma DayFirstRejectsBlank()
    ensures RejectsBlank(DayFirstParser())
  {
  }

  /** "05/03/2024" is the fifth of March; an annotation and an impossible day are not dates. */
  lemma DayFirstExamples()
    ensures ParseDayFirst("05/03/2024") == Some(Date(2024, 3, 5))
    ensures ParseDayFirst("29/02/2024") == Some(Date(2024, 2, 29))
    ensures ParseDayFirst("29/02/2023") == None
    ensures ParseDayFirst("Chest + Back") == None
  {
  }
}

=== FILE: divergence.dfy ===
/** The two importers side by side. utils.py forward-fills WorkoutDate the ordinary way,
    which on its own changes no resolved date, and then resolves dates over the rows that
    passed the numeric filter; importData.py resolves over every row. When every row is
    numeric the two agree; otherwise a row with a date but no numbers still dates the rows
    below it in importData.py and not in utils.py. */
module Divergence {
  import opened Wrappers
  import opened Seqs
  import opened Table
  import opened Fill
  import Importer
  import ImportScript
  import DayFirst

  /** The date loop over a forward-filled column, started with a carried cell whose parse
      (if any) is already the last valid date, resolves as over the raw column. */
  lemma {:induction false} ResolveFilledFrom(parse: DateParser, last: Option<Date>, carry: Cell, cs: seq<Cell>)
    requires RejectsBlank(parse)
    requires parse(carry).Some? ==> parse(carry) == last
    ensures ResolveFrom(parse, last, FFillFrom(carry, cs)) == ResolveFrom(parse, last, cs)
    decreases cs
  {
    if cs != [] {
      var cell := if cs[0].Blank? then carry else cs[0];
      var now := if parse(cs[0]).Some? then parse(cs[0]) else last;
      assert FFillFrom(carry, cs) == [cell] + FFillFrom(cell, cs[1..]);
      assert (if parse(cell).Some? then parse(cell) else last) == now;
      ResolveFilledFrom(parse, now, cell, cs[1..]);
    }
  }

  /** The ordinary ffill of WorkoutDate (utils.py:68) changes no resolved date: a blank
      cell never parses, so filling it with the cell above repeats a date already in force. */
  lemma ResolveFilled(parse: DateParser, cs: seq<Cell>)
    requires RejectsBlank(parse)
    ensures ResolveDates(parse, FFill(cs)) == ResolveDates(parse, cs)
  {
    ResolveFilledFrom(parse, None, Blank, cs);
  }

  /** When every row is numeric, the numeric filter drops nothing. */
  lemma {:induction false} AllSurvive(num: NumberParser, rows: seq<Row>)
    requires forall i :: 0 <= i < |rows| ==> Numeric(num, rows[i])
    ensures Importer.Survivors(num, rows) == Importer.FillAll(rows)
  {
    var filled := Importer.FillAll(rows);
    forall x | x in filled ensures Numeric(num, x) {
      var i :| 0 <= i < |filled| && filled[i] == x;
    }
    FilterKeepsAll(Importer.NumericRow(num), filled);
  }

  /** Rows filled by the two importers agree on everything a cleaned record reads. */
  lemma {:induction false} FilledAgree(rows: seq<Row>)
    ensures var a := Importer.FillAll(rows); var b := ImportScript.FillLabels(rows);
      |a| == |b| == |rows| &&
      forall i :: 0 <= i < |rows| ==>
        a[i].exercise == b[i].exercise && a[i].reps == b[i].reps && a[i].weight == b[i].weight
  {
    var a := Importer.FillAll(rows);
    var b := ImportScript.FillLabels(rows);
    forall i | 0 <= i < |rows|
      ensures a[i].exercise == b[i].exercise && a[i].reps == b[i].reps && a[i].weight == b[i].weight
    {
      assert a[i].exercise == Column(a, ExerciseName)[i] == Column(b, ExerciseName)[i] == b[i].exercise;
      assert a[i].reps == Column(a, Reps)[i] == Column(b, Reps)[i] == b[i].reps;
      assert a[i].weight == Column(a, WeightKg)[i] == Column(b, WeightKg)[i] == b[i].weight;
    }
  }

  /** When every row's Reps and WeightKG are present and numeric, the numeric filter drops
      nothing and the two importers clean exactly the same rows. */
  lemma AllNumericAgree(parse: DateParser, num: NumberParser, rows: seq<Row>)
    requires RejectsBlank(parse)
    requires forall i :: 0 <= i < |rows| ==> Numeric(num, rows[i])
    ensures Importer.CleanRows(parse, num, rows) == ImportScript.CleanRows(parse, num, rows)
  {
    RecordsAgree(parse, num, rows);
    FilterMapAgree(Recorder(num), Recorder(num), Importer.Dated(parse, num, rows), ImportScript.Dated(parse, rows));
  }

  /** Under a parser that rejects blanks, both importers resolve the same dates. */
  lemma DatesAgree(parse: DateParser, rows: seq<Row>)
    requires RejectsBlank(parse)
    ensures ResolveDates(parse, Column(Importer.FillAll(rows), WorkoutDate)) ==
      ResolveDates(parse, Column(ImportScript.FillLabels(rows), WorkoutDate))
  {
    ResolveFilled(parse, Column(rows, WorkoutDate));
    Importer.FillAllColumns(rows);
  }

  /** When every row is numeric, the two importers hand the same record to every row. */
  lemma RecordsAgree(parse: DateParser, num: NumberParser, rows: seq<Row>)
    requires RejectsBlank(parse)
    requires forall i :: 0 <= i < |rows| ==> Numeric(num, rows[i])
    ensures var xs := Importer.Dated(parse, num, rows); var ys := ImportScript.Dated(parse, rows);
      |xs| == |ys| && forall i :: 0 <= i < |xs| ==> Recorder(num)(xs[i]) == Recorder(num)(ys[i])
  {
    var filled := Importer.FillAll(rows);
    var labels := ImportScript.FillLabels(rows);
    AllSurvive(num, rows);
    FilledAgree(rows);
    DatesAgree(parse, rows);
    var dates := ResolveDates(parse, Column(labels, WorkoutDate));
    var xs := Importer.Dated(parse, num, rows);
    var ys := ImportScript.Dated(parse, rows);
    assert xs == Zip(filled, dates);
    forall i | 0 <= i < |xs| ensures Recorder(num)(xs[i]) == Recorder(num)(ys[i]) {
      assert xs[i] == (filled[i], dates[i]) && ys[i] == (labels[i], dates[i]);
    }
  }

  function Yield<B>(o: Option<B>): seq<B> {
    if o.Some? then [o.value] else []
  }

  lemma FilterMapTwo<A, B>(f: A -> Option<B>, xs: seq<A>)
    requires |xs| == 2
    ensures FilterMap(f, xs) == Yield(f(xs[0])) + Yield(f(xs[1]))
  {
    assert xs[1..][0] == xs[1] && xs[1..][1..] == [];
  }

  lemma FilterMapThree<A, B>(f: A -> Option<B>, xs: seq<A>)
    requires |xs| == 3
    ensures FilterMap(f, xs) == Yield(f(xs[0])) + Yield(f(xs[1])) + Yield(f(xs[2]))
  {
    FilterMapTwo(f, xs[1..]);
    assert xs[1..][0] == xs[1] && xs[1..][1] == xs[2];
  }

  function Keep<T>(p: T -> bool, x: T): seq<T> {
    if p(x) then [x] else []
  }

  lemma FilterTwo<T(!new)>(p: T -> bool, xs: seq<T>)
    requires |xs| == 2
    ensures Filter(p, xs) == Keep(p, xs[0]) + Keep(p, xs[1])
  {
    assert xs[1..][0] == xs[1] && xs[1..][1..] == [];
  }

  lemma FilterThree<T(!new)>(p: T -> bool, xs: seq<T>)
    requires |xs| == 3
    ensures Filter(p, xs) == Keep(p, xs[0]) + Keep(p, xs[1]) + Keep(p, xs[2])
  {
    FilterTwo(p, xs[1..]);
    assert xs[1..][0] == xs[1] && xs[1..][1] == xs[2];
  }

  /** A dated row with no numbers, then an annotation row that has them. */
  function Annotated(): seq<Row> {
    [Row(Text("1"), Text("05/03/2024"), Text("Bench Press"), Blank, Blank),
     Row(Blank, Text("Chest + Back"), Blank, Num(10.0), Num(60.0))]
  }

  /** On `Annotated`, importData.py keeps the annotation row under the first row's date
      and exercise; utils.py drops it, because the dated row fails the numeric filter
      before the date loop can see it. */
  lemma AnnotatedDiverges(parse: DateParser, num: NumberParser, d: Date)
    requires RejectsBlank(parse)
    requires parse(Text("05/03/2024")) == Some(d) && parse(Text("Chest + Back")) == None
    ensures ImportScript.CleanRows(parse, num, Annotated()) == [Clean(d, Text("Bench Press"), 10.0, 60.0)]
    ensures Importer.CleanRows(parse, num, Annotated()) == []
  {
    ScriptKeepsAnnotation(parse, num, d, Annotated());
    UtilsDropsAnnotation(parse, num, Annotated());
  }

  lemma ScriptKeepsAnnotation(parse: DateParser, num: NumberParser, d: Date, rows: seq<Row>)
    requires rows == Annotated()
    requires parse(Text("05/03/2024")) == Some(d) && parse(Text("Chest + Back")) == None
    ensures ImportScript.CleanRows(parse, num, rows) == [Clean(d, Text("Bench Press"), 10.0, 60.0)]
  {
    var labels := ImportScript.FillLabels(rows);
    AnnotatedLabels(rows);
    ResolveTwo(parse, Column(labels, WorkoutDate), d);
    var ys := ImportScript.Dated(parse, rows);
    assert ys[0] == (labels[0], Some(d)) && ys[1] == (labels[1], Some(d));
    assert Recorder(num)(ys[0]) == None;
    assert Recorder(num)(ys[1]) == Some(Clean(d, Text("Bench Press"), 10.0, 60.0));
    FilterMapTwo(Recorder(num), ys);
  }

  /** importData.py's filled rows: the annotation row inherits the exercise above it. */
  lemma AnnotatedLabels(rows: seq<Row>)
    requires rows == Annotated()
    ensures var labels := ImportScript.FillLabels(rows);
      |labels| == 2 && labels[0].reps == Blank && labels[1].exercise == Text("Bench Press") &&
      labels[1].reps == Num(10.0) && labels[1].weight == Num(60.0) &&
      labels[0].date == Text("05/03/2024") && labels[1].date == Text("Chest + Back")
  {
    var labels := ImportScript.FillLabels(rows);
    var names := Column(rows, ExerciseName);
    FFillCarries(names);
    assert Column(labels, ExerciseName)[1] == Column(labels, ExerciseName)[0] == names[0] == rows[0].exercise;
    assert labels[0].date == Column(labels, WorkoutDate)[0] == rows[0].date;
    assert labels[1].date == Column(labels, WorkoutDate)[1] == rows[1].date;
    assert labels[0].reps == Column(labels, Reps)[0] == rows[0].reps;
    assert labels[1].reps == Column(labels, Reps)[1] == rows[1].reps;
    assert labels[1].weight == Column(labels, WeightKg)[1] == rows[1].weight;
  }

  lemma ResolveTwo(parse: DateParser, cs: seq<Cell>, d: Date)
    requires |cs| == 2 && parse(cs[0]) == Some(d) && parse(cs[1]) == None
    ensures ResolveDates(parse, cs) == [Some(d), Some(d)]
  {
    ResolveDatesCarries(parse, cs);
  }

  lemma UtilsDropsAnnotation(parse: DateParser, num: NumberParser, rows: seq<Row>)
    requires rows == Annotated()
    requires parse(Text("Chest + Back")) == None
    ensures Importer.CleanRows(parse, num, rows) == []
  {
    AnnotatedSurvivors(num, rows);
    Importer.NoDatedSurvivor(parse, num, rows);
  }

  /** Only the annotation row passes the numeric filter, its date cell unchanged by ffill. */
  lemma AnnotatedSurvivors(num: NumberParser, rows: seq<Row>)
    requires rows == Annotated()
    ensures forall x :: x in Importer.Survivors(num, rows) ==> x.date == Text("Chest + Back")
  {
    var filled := Importer.FillAll(rows);
    var dates := Column(rows, WorkoutDate);
    FFillCarries(dates);
    assert filled[1].date == FFill(dates)[1] == dates[1] == rows[1].date;
    assert !Numeric(num, filled[0]);
    KeepOnlyLast(Importer.NumericRow(num), filled);
  }

  lemma KeepOnlyLast<T(!new)>(p: T -> bool, xs: seq<T>)
    requires |xs| == 2 && !p(xs[0])
    ensures forall x :: x in Filter(p, xs) ==> x == xs[1]
  {
    FilterTwo(p, xs);
  }

  /** The same divergence under the day-first reading of "DD/MM/YYYY". */
  lemma AnnotatedDivergesDayFirst(num: NumberParser)
    ensures ImportScript.CleanRows(DayFirst.DayFirstParser(), num, Annotated()) ==
      [Clean(Date(2024, 3, 5), Text("Bench Press"), 10.0, 60.0)]
    ensures Importer.CleanRows(DayFirst.DayFirstParser(), num, Annotated()) == []
  {
    DayFirst.DayFirstExamples();
    AnnotatedDiverges(DayFirst.DayFirstParser(), num, Date(2024, 3, 5));
  }

  /** A numeric dated row, a dated row with no numbers, then an annotation row: dates
      `a`, `b` and the note `c`, exercises `e1` and `e2`. */
  function Shifted(a: Cell, b: Cell, c: Cell, e1: Cell, e2: Cell): seq<Row> {
    [Row(Text("1"), a, e1, Num(5.0), Num(100.0)),
     Row(Text("2"), b, e2, Blank, Blank),
     Row(Blank, c, Blank, Num(10.0), Num(60.0))]
  }

  /** Both importers keep the annotation row of `Shifted`, but under different dates:
      importData.py files it under the second row's date, utils.py under the first's,
      because the second row never reaches utils.py's date loop. */
  lemma ShiftedDates(parse: DateParser, num: NumberParser, a: Cell, b: Cell, c: Cell, e1: Cell, e2: Cell, d1: Date, d2: Date)
    requires parse(a) == Some(d1) && parse(b) == Some(d2) && parse(c) == None
    requires !c.Blank? && !e1.Blank? && !e2.Blank?
    ensures ImportScript.CleanRows(parse, num, Shifted(a, b, c, e1, e2)) ==
      [Clean(d1, e1, 5.0, 100.0), Clean(d2, e2, 10.0, 60.0)]
    ensures Importer.CleanRows(parse, num, Shifted(a, b, c, e1, e2)) ==
      [Clean(d1, e1, 5.0, 100.0), Clean(d1, e2, 10.0, 60.0)]
  {
    ScriptShifted(parse, num, a, b, c, e1, e2, d1, d2, Shifted(a, b, c, e1, e2));
    UtilsShifted(parse, num, a, b, c, e1, e2, d1, Shifted(a, b, c, e1, e2));
  }

  lemma ScriptShifted(parse: DateParser, num: NumberParser, a: Cell, b: Cell, c: Cell, e1: Cell, e2: Cell, d1: Date, d2: Date, rows: seq<Row>)
    requires rows == Shifted(a, b, c, e1, e2)
    requires parse(a) == Some(d1) && parse(b) == Some(d2) && parse(c) == None
    requires !e1.Blank? && !e2.Blank?
    ensures ImportScript.CleanRows(parse, num, rows) == [Clean(d1, e1, 5.0, 100.0), Clean(d2, e2, 10.0, 60.0)]
  {
    ScriptShiftedRecords(parse, num, a, b, c, e1, e2, d1, d2, rows);
    FilterMapThree(Recorder(num), ImportScript.Dated(parse, rows));
  }

  lemma ScriptShiftedRecords(parse: DateParser, num: NumberParser, a: Cell, b: Cell, c: Cell, e1: Cell, e2: Cell, d1: Date, d2: Date, rows: seq<Row>)
    requires rows == Shifted(a, b, c, e1, e2)
    requires parse(a) == Some(d1) && parse(b) == Some(d2) && parse(c) == None
    requires !e1.Blank? && !e2.Blank?
    ensures var ys := ImportScript.Dated(parse, rows);
      |ys| == 3 &&
      Recorder(num)(ys[0]) == Some(Clean(d1, e1, 5.0, 100.0)) &&
      Recorder(num)(ys[1]) == None &&
      Recorder(num)(ys[2]) == Some(Clean(d2, e2, 10.0, 60.0))
  {
    var labels := ImportScript.FillLabels(rows);
    ShiftedLabels(a, b, c, e1, e2);
    var cs := Column(labels, WorkoutDate);
    ResolveThree(parse, cs, d1, d2);
    var ys := ImportScript.Dated(parse, rows);
    assert ys[0] == (labels[0], Some(d1)) && ys[1] == (labels[1], Some(d2)) && ys[2] == (labels[2], Some(d2));
    assert Recorder(num)(ys[0]) == Some(Clean(d1, e1, 5.0, 100.0));
    assert Recorder(num)(ys[1]) == None;
    assert Recorder(num)(ys[2]) == Some(Clean(d2, e2, 10.0, 60.0));
  }

  lemma ResolveThree(parse: DateParser, cs: seq<Cell>, d1: Date, d2: Date)
    requires |cs| == 3 && parse(cs[0]) == Some(d1) && parse(cs[1]) == Some(d2) && parse(cs[2]) == None
    ensures ResolveDates(parse, cs) == [Some(d1), Some(d2), Some(d2)]
  {
    ResolveDatesCarries(parse, cs);
  }

  lemma ShiftedLabels(a: Cell, b: Cell, c: Cell, e1: Cell, e2: Cell)
    requires !e1.Blank? && !e2.Blank?
    ensures var labels := ImportScript.FillLabels(Shifted(a, b, c, e1, e2));
      |labels| == 3 &&
      labels[0].date == a && labels[0].exercise == e1 && labels[0].reps == Num(5.0) && labels[0].weight == Num(100.0) &&
      labels[1].date == b && labels[1].reps == Blank &&
      labels[2].date == c && labels[2].exercise == e2 && labels[2].reps == Num(10.0) && labels[2].weight == Num(60.0)
  {
    var rows := Shifted(a, b, c, e1, e2);
    var labels := ImportScript.FillLabels(rows);
    var names := Column(rows, ExerciseName);
    FFillCarries(names);
    assert Column(labels, ExerciseName)[0] == names[0] == e1;
    assert Column(labels, ExerciseName)[2] == Column(labels, ExerciseName)[1] == names[1] == e2;
    assert labels[0].date == Column(labels, WorkoutDate)[0] == rows[0].date;
    assert labels[1].date == Column(labels, WorkoutDate)[1] == rows[1].date;
    assert labels[2].date == Column(labels, WorkoutDate)[2] == rows[2].date;
    assert labels[0].reps == Column(labels, Reps)[0] == rows[0].reps;
    assert labels[1].reps == Column(labels, Reps)[1] == rows[1].reps;
    assert labels[2].reps == Column(labels, Reps)[2] == rows[2].reps;
    assert labels[0].weight == Column(labels, WeightKg)[0] == rows[0].weight;
    assert labels[2].weight == Column(labels, WeightKg)[2] == rows[2].weight;
  }

  lemma UtilsShifted(parse: DateParser, num: NumberParser, a: Cell, b: Cell, c: Cell, e1: Cell, e2: Cell, d1: Date, rows: seq<Row>)
    requires rows == Shifted(a, b, c, e1, e2)
    requires parse(a) == Some(d1) && parse(c) == None
    requires !c.Blank? && !e1.Blank? && !e2.Blank?
    ensures Importer.CleanRows(parse, num, rows) == [Clean(d1, e1, 5.0, 100.0), Clean(d1, e2, 10.0, 60.0)]
  {
    UtilsShiftedRecords(parse, num, a, b, c, e1, e2, d1, rows);
    FilterMapTwo(Recorder(num), Importer.Dated(parse, num, rows));
  }

  lemma UtilsShiftedRecords(parse: DateParser, num: NumberParser, a: Cell, b: Cell, c: Cell, e1: Cell, e2: Cell, d1: Date, rows: seq<Row>)
    requires rows == Shifted(a, b, c, e1, e2)
    requires parse(a) == Some(d1) && parse(c) == None
    requires !c.Blank? && !e1.Blank? && !e2.Blank?
    ensures var xs := Importer.Dated(parse, num, rows);
      |xs| == 2 &&
      Recorder(num)(xs[0]) == Some(Clean(d1, e1, 5.0, 100.0)) &&
      Recorder(num)(xs[1]) == Some(Clean(d1, e2, 10.0, 60.0))
  {
    var filled := Importer.FillAll(rows);
    ShiftedFilled(a, b, c, e1, e2);
    ShiftedSurvivors(num, a, b, c, e1, e2, rows);
    var kept := Importer.Survivors(num, rows);
    var cs := Column(kept, WorkoutDate);
    assert cs[0] == a && cs[1] == c;
    ResolveDatesCarries(parse, cs);
    var xs := Importer.Dated(parse, num, rows);
    assert xs[0] == (filled[0], Some(d1)) && xs[1] == (filled[2], Some(d1));
  }

  lemma ShiftedSurvivors(num: NumberParser, a: Cell, b: Cell, c: Cell, e1: Cell, e2: Cell, rows: seq<Row>)
    requires rows == Shifted(a, b, c, e1, e2)
    requires !c.Blank? && !e1.Blank? && !e2.Blank?
    ensures var filled := Importer.FillAll(rows);
      |filled| == 3 && Importer.Survivors(num, rows) == [filled[0], filled[2]]
  {
    var filled := Importer.FillAll(rows);
    ShiftedFilled(a, b, c, e1, e2);
    assert Numeric(num, filled[0]) && !Numeric(num, filled[1]) && Numeric(num, filled[2]);
    KeepFirstAndLast(Importer.NumericRow(num), filled);
  }

  lemma KeepFirstAndLast<T(!new)>(p: T -> bool, xs: seq<T>)
    requires |xs| == 3 && p(xs[0]) && !p(xs[1]) && p(xs[2])
    ensures Filter(p, xs) == [xs[0], xs[2]]
  {
    FilterThree(p, xs);
  }

  lemma ShiftedFilled(a: Cell, b: Cell, c: Cell, e1: Cell, e2: Cell)
    requires !c.Blank? && !e1.Blank? && !e2.Blank?
    ensures var filled := Importer.FillAll(Shifted(a, b, c, e1, e2));
      |filled| == 3 &&
      filled[0].date == a && filled[0].exercise == e1 && filled[0].reps == Num(5.0) && filled[0].weight == Num(100.0) &&
      filled[1].reps == Blank &&
      filled[2].date == c && filled[2].exercise == e2 && filled[2].reps == Num(10.0) && filled[2].weight == Num(60.0)
  {
    var rows := Shifted(a, b, c, e1, e2);
    var filled := Importer.FillAll(rows);
    var names := Column(rows, ExerciseName);
    var dates := Column(rows, WorkoutDate);
    FFillCarries(names);
    FFillCarries(dates);
    assert filled[0].exercise == FFill(names)[0] == names[0] == e1;
    assert filled[2].exercise == FFill(names)[2] == FFill(names)[1] == names[1] == e2;
    assert filled[0].date == FFill(dates)[0] == dates[0] == a;
    assert filled[2].date == FFill(dates)[2] == dates[2] == c;
  }
}

=== FILE: fill.dfy ===
/** The two forward fills of the importers: pandas' ordinary `ffill` (carry the last
    non-blank cell down) and the date loop (carry the last successfully parsed date down). */
module Fill {
  import opened Wrappers
  import opened Table

  // ---------------------------------------------------------------- ordinary ffill

  /** The last non-blank cell of `cs`, or `before` when every cell of `cs` is blank. */
  function LatestNonBlank(before: Cell, cs: seq<Cell>): Cell {
    if cs == [] then before
    else if !cs[|cs| - 1].Blank? then cs[|cs| - 1]
    else LatestNonBlank(before, cs[..|cs| - 1])
  }

  /** `ffill` continuing from `carry`, the value carried in from the rows above. */
  function FFillFrom(carry: Cell, cs: seq<Cell>): (r: seq<Cell>)
    ensures |r| == |cs|
    decreases cs
  {
    if cs == [] then []
    else
      var now := if cs[0].Blank? then carry else cs[0];
      [now] + FFillFrom(now, cs[1..])
  }

  lemma {:induction false} LatestNonBlankCons(before: Cell, c: Cell, cs: seq<Cell>)
    ensures LatestNonBlank(before, [c] + cs) == LatestNonBlank(if c.Blank? then before else c, cs)
    decreases |cs|
  {
    if cs != [] && cs[|cs| - 1].Blank? {
      assert ([c] + cs)[..|[c] + cs| - 1] == [c] + cs[..|cs| - 1];
      LatestNonBlankCons(before, c, cs[..|cs| - 1]);
    }
  }

  lemma {:induction false} FFillFromSpec(carry: Cell, cs: seq<Cell>)
    ensures forall i :: 0 <= i < |cs| ==> FFillFrom(carry, cs)[i] == LatestNonBlank(carry, cs[..i + 1])
    decreases cs
  {
    if cs != [] {
      var now := if cs[0].Blank? then carry else cs[0];
      FFillFromSpec(now, cs[1..]);
      forall i | 0 <= i < |cs|
        ensures FFillFrom(carry, cs)[i] == LatestNonBlank(carry, cs[..i + 1])
      {
        assert cs[..i + 1] == [cs[0]] + cs[1..][..i];
        LatestNonBlankCons(carry, cs[0], cs[1..][..i]);
        if i > 0 {
          assert FFillFrom(carry, cs)[i] == FFillFrom(now, cs[1..])[i - 1];
        } else {
          assert cs[1..][..0] == [];
        }
      }
    }
  }

  /** `series.ffill()`: every cell becomes the nearest non-blank cell at or above it,
      and stays blank when there is none. */
  function FFill(cs: seq<Cell>): (r: seq<Cell>)
    ensures |r| == |cs|
    ensures forall i :: 0 <= i < |cs| ==> r[i] == LatestNonBlank(Blank, cs[..i + 1])
  {
    FFillFromSpec(Blank, cs);
    FFillFrom(Blank, cs)
  }

  lemma {:induction false} LatestNonBlankFound(before: Cell, cs: seq<Cell>)
    ensures LatestNonBlank(before, cs) == before || LatestNonBlank(before, cs) in cs
    ensures !LatestNonBlank(before, cs).Blank? || forall j :: 0 <= j < |cs| ==> cs[j].Blank?
    ensures (forall j :: 0 <= j < |cs| ==> cs[j].Blank?) ==> LatestNonBlank(before, cs) == before
  {
    if cs != [] && cs[|cs| - 1].Blank? {
      LatestNonBlankFound(before, cs[..|cs| - 1]);
      assert cs == cs[..|cs| - 1] + [cs[|cs| - 1]];
    }
  }

  /** What `ffill` promises pointwise: a non-blank cell is kept, a blank cell copies the
      filled cell above it, the top cell stays blank if it was blank, and a filled cell
      is blank exactly when every cell up to it is blank. */
  lemma {:induction false} FFillCarries(cs: seq<Cell>)
    ensures forall i :: 0 <= i < |cs| && !cs[i].Blank? ==> FFill(cs)[i] == cs[i]
    ensures forall i :: 0 < i < |cs| && cs[i].Blank? ==> FFill(cs)[i] == FFill(cs)[i - 1]
    ensures |cs| > 0 && cs[0].Blank? ==> FFill(cs)[0] == Blank
    ensures forall i :: 0 <= i < |cs| ==>
      (FFill(cs)[i].Blank? <==> forall j :: 0 <= j <= i ==> cs[j].Blank?)
  {
    var r := FFill(cs);
    forall i | 0 < i < |cs| && cs[i].Blank?
      ensures r[i] == r[i - 1]
    {
      assert cs[..i + 1][..i] == cs[..i];
    }
    forall i | 0 <= i < |cs|
      ensures r[i].Blank? <==> forall j :: 0 <= j <= i ==> cs[j].Blank?
    {
      LatestNonBlankFound(Blank, cs[..i + 1]);
      if forall j :: 0 <= j <= i ==> cs[j].Blank? {
        var p := cs[..i + 1];
        assert forall j :: 0 <= j < |p| ==> p[j].Blank?;
      }
    }
  }

  /** Forward filling invents nothing: every filled cell is blank or a cell of the column. */
  lemma {:induction false} FFillFromColumn(cs: seq<Cell>)
    ensures forall i :: 0 <= i < |cs| ==> FFill(cs)[i].Blank? || FFill(cs)[i] in cs
  {
    forall i | 0 <= i < |cs| ensures FFill(cs)[i].Blank? || FFill(cs)[i] in cs {
      var p := cs[..i + 1];
      LatestNonBlankFound(Blank, p);
      assert forall c :: c in p ==> c in cs;
    }
  }

  /** When no cell parses and blanks never parse, no forward-filled cell parses either. */
  lemma FFillUnparsed(parse: DateParser, cs: seq<Cell>)
    requires RejectsBlank(parse)
    requires forall i :: 0 <= i < |cs| ==> parse(cs[i]).None?
    ensures forall i :: 0 <= i < |cs| ==> parse(FFill(cs)[i]).None?
  {
    FFillFromColumn(cs);
    forall i | 0 <= i < |cs| ensures parse(FFill(cs)[i]).None? {
      if !FFill(cs)[i].Blank? {
        var j :| 0 <= j < |cs| && cs[j] == FFill(cs)[i];
      }
    }
  }

  lemma {:induction false} FFillFromIdempotent(carry: Cell, cs: seq<Cell>)
    ensures FFillFrom(carry, FFillFrom(carry, cs)) == FFillFrom(carry, cs)
    decreases cs
  {
    if cs != [] {
      var now := if cs[0].Blank? then carry else cs[0];
      var now2 := if now.Blank? then carry else now;
      assert now2 == now;
      FFillFromIdempotent(now, cs[1..]);
      assert FFillFrom(carry, cs)[1..] == FFillFrom(now, cs[1..]);
    }
  }

  /** Filling an already filled column changes nothing. */
  lemma FFillIdempotent(cs: seq<Cell>)
    ensures FFill(FFill(cs)) == FFill(cs)
  {
    FFillFromIdempotent(Blank, cs);
  }

  /** `df[f] = df[f].ffill()`: column `f` is forward-filled and every other column is
      left as it was. */
  function FillColumn(rows: seq<Row>, f: Field): (r: seq<Row>)
    ensures |r| == |rows|
    ensures Column(r, f) == FFill(Column(rows, f))
    ensures forall g :: g != f ==> Column(r, g) == Column(rows, g)
  {
    SetColumn(rows, f, FFill(Column(rows, f)))
  }

  /** The rows with their WorkoutID, WorkoutDate and ExerciseName cells replaced, row by
      row, by `ids`, `dates` and `names`. */
  function Relabel(rows: seq<Row>, ids: seq<Cell>, dates: seq<Cell>, names: seq<Cell>): (r: seq<Row>)
    requires |ids| == |rows| && |dates| == |rows| && |names| == |rows|
    ensures |r| == |rows|
    ensures forall i :: 0 <= i < |rows| ==>
      r[i] == Row(ids[i], dates[i], names[i], rows[i].reps, rows[i].weight)
  {
    if rows == [] then []
    else
      [Row(ids[0], dates[0], names[0], rows[0].reps, rows[0].weight)] +
        Relabel(rows[1..], ids[1..], dates[1..], names[1..])
  }

  // ---------------------------------------------------------------- date resolution

  /** The parse of the last cell of `cs` that parses, or `before` when none does. */
  function LatestParsed(parse: DateParser, before: Option<Date>, cs: seq<Cell>): Option<Date> {
    if cs == [] then before
    else if parse(cs[|cs| - 1]).Some? then parse(cs[|cs| - 1])
    else LatestParsed(parse, before, cs[..|cs| - 1])
  }

  /** The date loop continuing from `last_valid_date == last`: a cell that parses becomes
      the new last valid date, one that does not leaves it unchanged, and every row
      receives the last valid date as it stands after that row. */
  function ResolveFrom(parse: DateParser, last: Option<Date>, cs: seq<Cell>): (r: seq<Option<Date>>)
    ensures |r| == |cs|
    decreases cs
  {
    if cs == [] then []
    else
      var now := if parse(cs[0]).Some? then parse(cs[0]) else last;
      [now] + ResolveFrom(parse, now, cs[1..])
  }

  lemma {:induction false} LatestParsedCons(parse: DateParser, before: Option<Date>, c: Cell, cs: seq<Cell>)
    ensures LatestParsed(parse, before, [c] + cs) ==
            LatestParsed(parse, if parse(c).Some? then parse(c) else before, cs)
    decreases |cs|
  {
    if cs != [] && parse(cs[|cs| - 1]).None? {
      assert ([c] + cs)[..|[c] + cs| - 1] == [c] + cs[..|cs| - 1];
      LatestParsedCons(parse, before, c, cs[..|cs| - 1]);
    }
  }

  lemma {:induction false} ResolveFromSpec(parse: DateParser, last: Option<Date>, cs: seq<Cell>)
    ensures forall i :: 0 <= i < |cs| ==> ResolveFrom(parse, last, cs)[i] == LatestParsed(parse, last, cs[..i + 1])
    decreases cs
  {
    if cs != [] {
      var now := if parse(cs[0]).Some? then parse(cs[0]) else last;
      ResolveFromSpec(parse, now, cs[1..]);
      forall i | 0 <= i < |cs|
        ensures ResolveFrom(parse, last, cs)[i] == LatestParsed(parse, last, cs[..i + 1])
      {
        assert cs[..i + 1] == [cs[0]] + cs[1..][..i];
        LatestParsedCons(parse, last, cs[0], cs[1..][..i]);
        if i > 0 {
          assert ResolveFrom(parse, last, cs)[i] == ResolveFrom(parse, now, cs[1..])[i - 1];
        } else {
          assert cs[1..][..0] == [];
        }
      }
    }
  }

  /** The `cleaned_dates` list: each row's date is the parse of the most recent
      parseable cell at or above it, and unset when there is none. */
  function ResolveDates(parse: DateParser, cs: seq<Cell>): (r: seq<Option<Date>>)
    ensures |r| == |cs|
    ensures forall i :: 0 <= i < |cs| ==> r[i] == LatestParsed(parse, None, cs[..i + 1])
  {
    ResolveFromSpec(parse, None, cs);
    ResolveFrom(parse, None, cs)
  }

  lemma {:induction false} LatestParsedFound(parse: DateParser, cs: seq<Cell>)
    ensures LatestParsed(parse, None, cs).None? <==> forall j :: 0 <= j < |cs| ==> parse(cs[j]).None?
    ensures LatestParsed(parse, None, cs).Some? ==>
      exists j :: 0 <= j < |cs| && parse(cs[j]) == LatestParsed(parse, None, cs) &&
        forall k :: j < k < |cs| ==> parse(cs[k]).None?
  {
    if cs != [] {
      var init := cs[..|cs| - 1];
      LatestParsedFound(parse, init);
      assert forall j :: 0 <= j < |init| ==> init[j] == cs[j];
    }
  }

  /** What the date loop promises pointwise: a row whose cell parses gets that date
      (a successful parse always becomes `last_valid_date`); a row whose cell does not
      parse -- annotation text such as "Chest + Back", a blank -- keeps the date of the
      row above, and the first row stays unset; a row's date is unset exactly when no
      cell up to it parses; and a set date is the parse of the last parseable cell at
      or above the row. */
  lemma ResolveDatesCarries(parse: DateParser, cs: seq<Cell>)
    ensures forall i :: 0 <= i < |cs| && parse(cs[i]).Some? ==> ResolveDates(parse, cs)[i] == parse(cs[i])
    ensures forall i :: 0 < i < |cs| && parse(cs[i]).None? ==> ResolveDates(parse, cs)[i] == ResolveDates(parse, cs)[i - 1]
    ensures |cs| > 0 && parse(cs[0]).None? ==> ResolveDates(parse, cs)[0].None?
    ensures forall i :: 0 <= i < |cs| ==>
      (ResolveDates(parse, cs)[i].None? <==> forall j :: 0 <= j <= i ==> parse(cs[j]).None?)
    ensures forall i :: 0 <= i < |cs| && ResolveDates(parse, cs)[i].Some? ==>
      exists j :: 0 <= j <= i && parse(cs[j]) == ResolveDates(parse, cs)[i] &&
        forall k :: j < k <= i ==> parse(cs[k]).None?
  {
    var r := ResolveDates(parse, cs);
    forall i | 0 < i < |cs| && parse(cs[i]).None?
      ensures r[i] == r[i - 1]
    {
      assert cs[..i + 1][..i] == cs[..i];
    }
    forall i | 0 <= i < |cs|
      ensures r[i].None? <==> forall j :: 0 <= j <= i ==> parse(cs[j]).None?
      ensures r[i].Some? ==>
        exists j :: 0 <= j <= i && parse(cs[j]) == r[i] && forall k :: j < k <= i ==> parse(cs[k]).None?
    {
      var p := cs[..i + 1];
      LatestParsedFound(parse, p);
      assert forall j :: 0 <= j < |p| ==> p[j] == cs[j];
    }
  }
}

=== FILE: import_script.dfy ===
/** importData.py: `replace_data_from_excel`, the stand-alone script that rebuilds
    workouts.csv and exercises.csv from a spreadsheet. Dates are resolved over every row
    before any row is dropped. The two CSV files are the returned values. */
module ImportScript {
  import opened Wrappers
  import opened Seqs
  import opened Strings
  import opened Table
  import opened Fill

  /** One line of workouts.csv: one set, reps and weight as coerced, without truncation. */
  datatype CsvWorkout = CsvWorkout(date: Date, exercise: Cell, sets: int, reps: real, weight: real)

  /** What a run leaves behind. A missing column raises KeyError before anything is
      written. Otherwise workouts.csv is written; exercises.csv follows unless sorting the
      exercise names raised TypeError (`exercises == None`). */
  datatype Outcome = KeyError | Wrote(workouts: seq<CsvWorkout>, exercises: Option<seq<string>>)

  /** WorkoutID and ExerciseName forward-filled the ordinary way. */
  function FillLabels(rows: seq<Row>): (r: seq<Row>)
    ensures |r| == |rows|
    ensures Column(r, WorkoutId) == FFill(Column(rows, WorkoutId))
    ensures Column(r, ExerciseName) == FFill(Column(rows, ExerciseName))
    ensures forall g :: g != WorkoutId && g != ExerciseName ==> Column(r, g) == Column(rows, g)
  {
    FillColumn(FillColumn(rows, WorkoutId), ExerciseName)
  }

  /** The rows paired with their resolved dates, the date loop running over every row. */
  function Dated(parse: DateParser, rows: seq<Row>): (r: seq<(Row, Option<Date>)>)
    ensures |r| == |rows|
  {
    var filled := FillLabels(rows);
    Zip(filled, ResolveDates(parse, Column(filled, WorkoutDate)))
  }

  /** The cleaned rows: date loop over all rows, then the rows with no date, a missing
      number or a non-numeric number dropped, in file order. */
  function CleanRows(parse: DateParser, num: NumberParser, rows: seq<Row>): (r: seq<Clean>)
    ensures |r| <= |rows|
  {
    FilterMap(Recorder(num), Dated(parse, rows))
  }

  /** Row `i`'s resolved date: the parse of the last parseable WorkoutDate cell in rows 0..i. */
  function DateAt(parse: DateParser, rows: seq<Row>, i: nat): Option<Date>
    requires i < |rows|
  {
    LatestParsed(parse, None, Column(rows, WorkoutDate)[..i + 1])
  }

  /** Row `i`'s exercise: the last non-blank ExerciseName cell in rows 0..i. */
  function ExerciseAt(rows: seq<Row>, i: nat): Cell
    requires i < |rows|
  {
    LatestNonBlank(Blank, Column(rows, ExerciseName)[..i + 1])
  }

  /** Row `i` reaches workouts.csv. */
  predicate Survives(parse: DateParser, num: NumberParser, rows: seq<Row>, i: nat)
    requires i < |rows|
  {
    DateAt(parse, rows, i).Some? && Numeric(num, rows[i])
  }

  /** The positions of the rows that reach workouts.csv. */
  function Kept(parse: DateParser, num: NumberParser, rows: seq<Row>): seq<nat> {
    Picked(Recorder(num), Dated(parse, rows))
  }

  /** The cleaned rows are exactly the surviving rows, in file order: row `i` survives
      iff a date has been resolved by row `i` and both numbers are present and numeric,
      and the `k`-th cleaned row carries the `k`-th survivor's resolved date, filled
      exercise and coerced numbers. */
  lemma CleanRowsSpec(parse: DateParser, num: NumberParser, rows: seq<Row>)
    ensures |Kept(parse, num, rows)| == |CleanRows(parse, num, rows)|
    ensures forall k, l :: 0 <= k < l < |Kept(parse, num, rows)| ==>
      Kept(parse, num, rows)[k] < Kept(parse, num, rows)[l]
    ensures forall i :: 0 <= i < |rows| ==> (i in Kept(parse, num, rows) <==> Survives(parse, num, rows, i))
    ensures forall k :: 0 <= k < |Kept(parse, num, rows)| ==>
      var i := Kept(parse, num, rows)[k];
      i < |rows| && Survives(parse, num, rows, i) &&
      CleanRows(parse, num, rows)[k] ==
        Clean(DateAt(parse, rows, i).value, ExerciseAt(rows, i),
              Number(num, rows[i].reps).value, Number(num, rows[i].weight).value)
  {
    var f := Recorder(num);
    var xs := Dated(parse, rows);
    var kept := Kept(parse, num, rows);
    PickedOrdered(f, xs);
    PickedValues(f, xs);
    PickedComplete(f, xs);
    DatedSpec(parse, num, rows);
  }

  /** Row `i` of `Dated` yields the record of row `i` with its resolved date and filled exercise. */
  lemma DatedSpec(parse: DateParser, num: NumberParser, rows: seq<Row>)
    ensures forall i :: 0 <= i < |rows| ==>
      Recorder(num)(Dated(parse, rows)[i]) ==
        if Survives(parse, num, rows, i) then
          Some(Clean(DateAt(parse, rows, i).value, ExerciseAt(rows, i),
                     Number(num, rows[i].reps).value, Number(num, rows[i].weight).value))
        else None
  {
    var filled := FillLabels(rows);
    var xs := Dated(parse, rows);
    assert Column(filled, WorkoutDate) == Column(rows, WorkoutDate);
    assert Column(filled, Reps) == Column(rows, Reps);
    assert Column(filled, WeightKg) == Column(rows, WeightKg);
    forall i | 0 <= i < |rows|
      ensures Recorder(num)(xs[i]) ==
        if Survives(parse, num, rows, i) then
          Some(Clean(DateAt(parse, rows, i).value, ExerciseAt(rows, i),
                     Number(num, rows[i].reps).value, Number(num, rows[i].weight).value))
        else None
    {
      assert xs[i] == (filled[i], DateAt(parse, rows, i));
      assert filled[i].reps == Column(filled, Reps)[i] == rows[i].reps;
      assert filled[i].weight == Column(filled, WeightKg)[i] == rows[i].weight;
      assert filled[i].exercise == Column(filled, ExerciseName)[i] == ExerciseAt(rows, i);
    }
  }

  /** `sorted(series.unique())` on the exercise column. Sorting text together with a
      number or NaN raises TypeError; a column with no text at all is also reported as no
      catalogue (see the README). */
  function Catalogue(names: seq<Cell>): (r: Option<seq<string>>)
    ensures r.Some? <==> forall i :: 0 <= i < |names| ==> names[i].Text?
    ensures r.Some? ==> StrictlySorted(r.value)
    ensures r.Some? ==> forall s :: s in r.value <==> Text(s) in names
  {
    if forall i :: 0 <= i < |names| ==> names[i].Text? then Some(SortedDistinct(Texts(names))) else None
  }

  /** True when reading the sheet's columns raises KeyError: WorkoutID and ExerciseName
      are read at once, Reps and WeightKG by the `dropna`, and WorkoutDate only inside the
      loop, so only when there is a row. */
  predicate Crashes(sheet: Sheet) {
    "WorkoutID" !in sheet.columns || "ExerciseName" !in sheet.columns ||
    ("WorkoutDate" !in sheet.columns && sheet.rows != []) ||
    "Reps" !in sheet.columns || "WeightKG" !in sheet.columns
  }

  function ToCsv(c: Clean): CsvWorkout {
    CsvWorkout(c.date, c.exercise, 1, c.reps, c.weight)
  }

  function ExerciseOf(w: CsvWorkout): Cell {
    w.exercise
  }

  /** `replace_data_from_excel`. */
  function ReplaceFromExcel(parse: DateParser, num: NumberParser, sheet: Sheet): (r: Outcome)
    ensures r.KeyError? <==> Crashes(sheet)
    ensures r.Wrote? ==>
      var cleaned := CleanRows(parse, num, sheet.rows);
      |r.workouts| == |cleaned| <= |sheet.rows| &&
      forall k :: 0 <= k < |cleaned| ==>
        r.workouts[k].sets == 1 && r.workouts[k].date == cleaned[k].date &&
        r.workouts[k].exercise == cleaned[k].exercise &&
        r.workouts[k].reps == cleaned[k].reps && r.workouts[k].weight == cleaned[k].weight
    ensures r.Wrote? ==>
      (r.exercises.Some? <==> forall k :: 0 <= k < |r.workouts| ==> r.workouts[k].exercise.Text?)
    ensures r.Wrote? && r.exercises.Some? ==>
      StrictlySorted(r.exercises.value) &&
      forall s :: s in r.exercises.value <==> exists k :: 0 <= k < |r.workouts| && r.workouts[k].exercise == Text(s)
  {
    if Crashes(sheet) then KeyError
    else
      var workouts := Map(ToCsv, CleanRows(parse, num, sheet.rows));
      var names := Map(ExerciseOf, workouts);
      NamesOf(workouts);
      Wrote(workouts, Catalogue(names))
  }

  /** A name is in the written name column iff some written workout carries it. */
  lemma NamesOf(workouts: seq<CsvWorkout>)
    ensures forall s :: Text(s) in Map(ExerciseOf, workouts) <==>
      exists k :: 0 <= k < |workouts| && workouts[k].exercise == Text(s)
  {
    var names := Map(ExerciseOf, workouts);
    forall s | Text(s) in names ensures exists k :: 0 <= k < |workouts| && workouts[k].exercise == Text(s) {
      var k :| 0 <= k < |names| && names[k] == Text(s);
      assert workouts[k].exercise == Text(s);
    }
    forall s | exists k :: 0 <= k < |workouts| && workouts[k].exercise == Text(s) ensures Text(s) in names {
      var k :| 0 <= k < |workouts| && workouts[k].exercise == Text(s);
      assert names[k] == Text(s);
    }
  }
}

=== FILE: importer.dfy ===
/** utils.py: `import_excel_workouts`, the dashboard's spreadsheet import into the hosted
    tables. Unlike importData.py it forward-fills WorkoutDate the ordinary way, drops the
    non-numeric rows, and only then resolves dates over the rows that are left. */
module Importer {
  import opened Wrappers
  import opened Seqs
  import opened Strings
  import opened Table
  import opened Fill
  import opened Backend

  /** The message half of the `(success, message)` pair the import returns. */
  datatype Message = MissingColumns(missing: seq<string>) | ImportedCount(count: nat) | ImportError

  /** The import's `(success, message)` pair together with the tables it leaves behind. */
  datatype ImportResult = ImportResult(ok: bool, message: Message, store: Store)

  /** The text the dashboard shows for a message. The exception text that follows
      "Error importing Excel file: " comes from the store client and is not modelled. */
  function Render(m: Message): string {
    match m
    case MissingColumns(missing) =>
      "Missing columns: " + Join(missing, ", ") + ". Ensure Excel has: " + Join(RequiredColumns, ", ")
    case ImportedCount(n) => "Successfully imported " + NatToString(n) + " workouts"
    case ImportError => "Error importing Excel file: "
  }

  lemma RenderCountExample()
    ensures Render(ImportedCount(42)) == "Successfully imported 42 workouts"
  {
    assert NatToString(4) == "4";
    assert NatToString(42) == "42";
  }

  function Absent(columns: seq<string>): string -> bool {
    c => c !in columns
  }

  /** The required columns the sheet lacks, in required-column order. */
  function MissingColumnsOf(columns: seq<string>): (r: seq<string>)
    ensures forall c :: c in r <==> c in RequiredColumns && c !in columns
    ensures IsSubseq(r, RequiredColumns)
  {
    FilterIsSubseq(Absent(columns), RequiredColumns);
    Filter(Absent(columns), RequiredColumns)
  }

  /** WorkoutID, WorkoutDate and ExerciseName forward-filled the ordinary way: each row
      keeps its Reps and WeightKG and takes its three label cells from the filled columns. */
  function FillAll(rows: seq<Row>): (r: seq<Row>)
    ensures |r| == |rows|
    ensures forall i :: 0 <= i < |rows| ==>
      r[i] == Row(FFill(Column(rows, WorkoutId))[i], FFill(Column(rows, WorkoutDate))[i],
                  FFill(Column(rows, ExerciseName))[i], rows[i].reps, rows[i].weight)
  {
    Relabel(rows, FFill(Column(rows, WorkoutId)), FFill(Column(rows, WorkoutDate)), FFill(Column(rows, ExerciseName)))
  }

  /** The same, column by column: lines 67-69 fill three columns and leave two alone. */
  lemma FillAllColumns(rows: seq<Row>)
    ensures Column(FillAll(rows), WorkoutId) == FFill(Column(rows, WorkoutId))
    ensures Column(FillAll(rows), WorkoutDate) == FFill(Column(rows, WorkoutDate))
    ensures Column(FillAll(rows), ExerciseName) == FFill(Column(rows, ExerciseName))
    ensures Column(FillAll(rows), Reps) == Column(rows, Reps)
    ensures Column(FillAll(rows), WeightKg) == Column(rows, WeightKg)
  {
  }

  function NumericRow(num: NumberParser): Row -> bool {
    r => Numeric(num, r)
  }

  /** The filled rows whose Reps and WeightKG are both present and numeric, in file order. */
  function Survivors(num: NumberParser, rows: seq<Row>): seq<Row> {
    Filter(NumericRow(num), FillAll(rows))
  }

  /** Every copy of a numeric filled row survives and no other row does, in file order:
      identical sets stay separate rows. */
  lemma SurvivorsCount(num: NumberParser, rows: seq<Row>)
    ensures forall x :: multiset(Survivors(num, rows))[x] == if Numeric(num, x) then multiset(FillAll(rows))[x] else 0
    ensures forall x :: x in Survivors(num, rows) <==> x in FillAll(rows) && Numeric(num, x)
    ensures IsSubseq(Survivors(num, rows), FillAll(rows))
  {
    FilterIsSubseq(NumericRow(num), FillAll(rows));
    FilterCount(NumericRow(num), FillAll(rows));
  }

  /** The sheet rows that survive the numeric filter, in increasing order. */
  function SurvivorRows(num: NumberParser, rows: seq<Row>): seq<nat> {
    Positions(NumericRow(num), FillAll(rows))
  }

  /** Survivor `i` is sheet row `SurvivorRows(num, rows)[i]` after the ffill, and the sheet
      rows listed are exactly the numeric ones. */
  lemma SurvivorsAt(num: NumberParser, rows: seq<Row>)
    ensures |SurvivorRows(num, rows)| == |Survivors(num, rows)|
    ensures forall i :: 0 <= i < |SurvivorRows(num, rows)| ==>
      SurvivorRows(num, rows)[i] < |rows| &&
      Survivors(num, rows)[i] == FillAll(rows)[SurvivorRows(num, rows)[i]]
    ensures forall i, l :: 0 <= i < l < |SurvivorRows(num, rows)| ==>
      SurvivorRows(num, rows)[i] < SurvivorRows(num, rows)[l]
    ensures forall j :: 0 <= j < |rows| ==> (j in SurvivorRows(num, rows) <==> Numeric(num, FillAll(rows)[j]))
  {
    FilterPositionsAt(NumericRow(num), FillAll(rows));
    FilterPositionsOrdered(NumericRow(num), FillAll(rows));
    FilterPositionsWhich(NumericRow(num), FillAll(rows));
  }

  /** The survivors paired with their dates, the date loop running over the survivors only. */
  function Dated(parse: DateParser, num: NumberParser, rows: seq<Row>): (r: seq<(Row, Option<Date>)>)
    ensures |r| == |Survivors(num, rows)|
  {
    var kept := Survivors(num, rows);
    Zip(kept, ResolveDates(parse, Column(kept, WorkoutDate)))
  }

  /** The cleaned rows, in file order. */
  function CleanRows(parse: DateParser, num: NumberParser, rows: seq<Row>): (r: seq<Clean>)
    ensures |r| <= |rows|
  {
    FilterMap(Recorder(num), Dated(parse, num, rows))
  }

  /** Survivor `i`'s date: the parse of the last parseable (filled) WorkoutDate among
      survivors 0..i. */
  function SurvivorDate(parse: DateParser, kept: seq<Row>, i: nat): Option<Date>
    requires i < |kept|
  {
    LatestParsed(parse, None, Column(kept, WorkoutDate)[..i + 1])
  }

  /** The positions, among the survivors, of the rows that are imported. */
  function Kept(parse: DateParser, num: NumberParser, rows: seq<Row>): seq<nat> {
    Picked(Recorder(num), Dated(parse, num, rows))
  }

  /** The cleaned rows are the survivors that have a date, in order. The next three
      lemmas say so: the picked survivor positions increase, survivor `i` is imported iff
      a survivor at or before it has a parseable WorkoutDate, and the `k`-th cleaned row
      carries its survivor's date, exercise and numbers. A row dropped by the numeric
      filter never supplies a date. */
  lemma CleanRowsOrder(parse: DateParser, num: NumberParser, rows: seq<Row>)
    ensures |Kept(parse, num, rows)| == |CleanRows(parse, num, rows)|
    ensures forall k, l :: 0 <= k < l < |Kept(parse, num, rows)| ==>
      Kept(parse, num, rows)[k] < Kept(parse, num, rows)[l]
  {
    PickedOrdered(Recorder(num), Dated(parse, num, rows));
  }

  /** Survivor `i` is imported iff a date is resolved by survivor `i`. */
  lemma CleanRowsWhich(parse: DateParser, num: NumberParser, rows: seq<Row>)
    ensures forall i :: 0 <= i < |Survivors(num, rows)| ==>
      (i in Kept(parse, num, rows) <==> SurvivorDate(parse, Survivors(num, rows), i).Some?)
  {
    var f := Recorder(num);
    var xs := Dated(parse, num, rows);
    var kept := Survivors(num, rows);
    var idx := Kept(parse, num, rows);
    PickedValues(f, xs);
    PickedComplete(f, xs);
    DatedSpec(parse, num, rows);
    forall i | 0 <= i < |kept| ensures i in idx <==> SurvivorDate(parse, kept, i).Some? {
      if i in idx {
        var k :| 0 <= k < |idx| && idx[k] == i;
        assert f(xs[i]).Some?;
      }
    }
  }

  /** The `k`-th cleaned row is built from the `k`-th picked survivor. */
  lemma CleanRowsAt(parse: DateParser, num: NumberParser, rows: seq<Row>)
    ensures forall k :: 0 <= k < |Kept(parse, num, rows)| ==>
      var kept := Survivors(num, rows);
      var i := Kept(parse, num, rows)[k];
      i < |kept| && SurvivorDate(parse, kept, i).Some? && Numeric(num, kept[i]) &&
      CleanRows(parse, num, rows)[k] ==
        Clean(SurvivorDate(parse, kept, i).value, kept[i].exercise,
              Number(num, kept[i].reps).value, Number(num, kept[i].weight).value)
  {
    var f := Recorder(num);
    var xs := Dated(parse, num, rows);
    PickedValues(f, xs);
    DatedSpec(parse, num, rows);
  }

  /** Nothing is imported iff no survivor has a date. */
  lemma CleanRowsEmpty(parse: DateParser, num: NumberParser, rows: seq<Row>)
    ensures CleanRows(parse, num, rows) == [] <==>
      forall i :: 0 <= i < |Survivors(num, rows)| ==> SurvivorDate(parse, Survivors(num, rows), i).None?
  {
    CleanRowsOrder(parse, num, rows);
    CleanRowsWhich(parse, num, rows);
    CleanRowsAt(parse, num, rows);
    var kept := Survivors(num, rows);
    var idx := Kept(parse, num, rows);
    assert |idx| > 0 ==> idx[0] < |kept| && SurvivorDate(parse, kept, idx[0]).Some?;
    assert forall i :: 0 <= i < |kept| && SurvivorDate(parse, kept, i).Some? ==> i in idx;
  }

  /** Survivor `i` is numeric and is paired with its resolved date. */
  lemma DatedSpec(parse: DateParser, num: NumberParser, rows: seq<Row>)
    ensures forall i :: 0 <= i < |Survivors(num, rows)| ==>
      Numeric(num, Survivors(num, rows)[i]) &&
      Dated(parse, num, rows)[i] == (Survivors(num, rows)[i], SurvivorDate(parse, Survivors(num, rows), i))
  {
    var kept := Survivors(num, rows);
    var xs := Dated(parse, num, rows);
    forall i | 0 <= i < |kept|
      ensures Numeric(num, kept[i]) && xs[i] == (kept[i], SurvivorDate(parse, kept, i))
    {
      assert kept[i] in kept;
    }
  }

  /** Sheet row `j`'s date in this importer: the parse of the last parseable filled
      WorkoutDate among the numeric rows 0..j. */
  function RowDate(parse: DateParser, num: NumberParser, rows: seq<Row>, j: nat): Option<Date>
    requires j < |rows|
  {
    LatestParsed(parse, None, Column(Filter(NumericRow(num), FillAll(rows)[..j + 1]), WorkoutDate))
  }

  /** Over any rows `xs`: the filtered rows resolve to a date iff a row that passes has a
      parseable WorkoutDate. */
  lemma FilteredDateFound(parse: DateParser, p: Row -> bool, xs: seq<Row>)
    ensures LatestParsed(parse, None, Column(Filter(p, xs), WorkoutDate)).Some? <==>
      exists l :: 0 <= l < |xs| && p(xs[l]) && parse(xs[l].date).Some?
  {
    var pre := Filter(p, xs);
    var cs := Column(pre, WorkoutDate);
    LatestParsedFound(parse, cs);
    if LatestParsed(parse, None, cs).Some? {
      var m :| 0 <= m < |cs| && parse(cs[m]).Some?;
      assert pre[m] in pre;
      var l :| 0 <= l < |xs| && xs[l] == pre[m];
      assert cs[m] == xs[l].date;
    }
    forall l | 0 <= l < |xs| && p(xs[l]) && parse(xs[l].date).Some?
      ensures LatestParsed(parse, None, cs).Some?
    {
      assert xs[l] in pre;
      var m :| 0 <= m < |pre| && pre[m] == xs[l];
      assert cs[m] == xs[l].date;
    }
  }

  /** Sheet row `j` has a date iff some numeric row at or before it has a parseable filled
      WorkoutDate. */
  lemma RowDateFound(parse: DateParser, num: NumberParser, rows: seq<Row>, j: nat)
    requires j < |rows|
    ensures RowDate(parse, num, rows, j).Some? <==>
      exists l :: 0 <= l <= j && Numeric(num, FillAll(rows)[l]) && parse(FillAll(rows)[l].date).Some?
  {
    var filled := FillAll(rows);
    var pre := filled[..j + 1];
    FilteredDateFound(parse, NumericRow(num), pre);
    assert forall l :: 0 <= l <= j ==> pre[l] == filled[l];
  }

  /** Over any rows `xs`: the dates resolved along the filtered rows are those of the
      prefixes that end at each kept row. */
  lemma FilteredDates(parse: DateParser, p: Row -> bool, xs: seq<Row>)
    ensures forall i :: 0 <= i < |Filter(p, xs)| ==>
      i < |Positions(p, xs)| && Positions(p, xs)[i] < |xs| &&
      LatestParsed(parse, None, Column(Filter(p, xs), WorkoutDate)[..i + 1]) ==
        LatestParsed(parse, None, Column(Filter(p, xs[..Positions(p, xs)[i] + 1]), WorkoutDate))
  {
    var kept := Filter(p, xs);
    FilterPositionsAt(p, xs);
    forall i | 0 <= i < |kept|
      ensures Column(kept, WorkoutDate)[..i + 1] == Column(Filter(p, xs[..Positions(p, xs)[i] + 1]), WorkoutDate)
    {
      FilterPrefix(p, xs, i);
      ColumnPrefix(kept, WorkoutDate, i + 1);
    }
  }

  /** Survivor `i`'s date is the date of the sheet row it came from. */
  lemma SurvivorDateAt(parse: DateParser, num: NumberParser, rows: seq<Row>, i: nat)
    requires i < |Survivors(num, rows)|
    ensures i < |SurvivorRows(num, rows)| && SurvivorRows(num, rows)[i] < |rows|
    ensures SurvivorDate(parse, Survivors(num, rows), i) == RowDate(parse, num, rows, SurvivorRows(num, rows)[i])
  {
    FilteredDates(parse, NumericRow(num), FillAll(rows));
  }

  /** The sheet rows that are imported, in increasing order. */
  function ImportedRows(parse: DateParser, num: NumberParser, rows: seq<Row>): seq<nat> {
    var pos := SurvivorRows(num, rows);
    var idx := Kept(parse, num, rows);
    PickedOrdered(Recorder(num), Dated(parse, num, rows));
    SurvivorsAt(num, rows);
    seq(|idx|, k requires 0 <= k < |idx| => pos[idx[k]])
  }

  /** One imported sheet row per cleaned row, in increasing sheet order. */
  lemma CleanRowsSheetOrder(parse: DateParser, num: NumberParser, rows: seq<Row>)
    ensures |ImportedRows(parse, num, rows)| == |CleanRows(parse, num, rows)|
    ensures forall k :: 0 <= k < |ImportedRows(parse, num, rows)| ==> ImportedRows(parse, num, rows)[k] < |rows|
    ensures forall k, l :: 0 <= k < l < |ImportedRows(parse, num, rows)| ==>
      ImportedRows(parse, num, rows)[k] < ImportedRows(parse, num, rows)[l]
  {
    CleanRowsOrder(parse, num, rows);
    PickedOrdered(Recorder(num), Dated(parse, num, rows));
    SurvivorsAt(num, rows);
  }

  /** Sheet row `j` is imported iff it is numeric and has a date. */
  lemma ImportedRowWhich(parse: DateParser, num: NumberParser, rows: seq<Row>, j: nat)
    requires j < |rows|
    ensures j in ImportedRows(parse, num, rows) <==>
      Numeric(num, FillAll(rows)[j]) && RowDate(parse, num, rows, j).Some?
  {
    var pos := SurvivorRows(num, rows);
    var idx := Kept(parse, num, rows);
    var imp := ImportedRows(parse, num, rows);
    SurvivorsAt(num, rows);
    CleanRowsWhich(parse, num, rows);
    PickedOrdered(Recorder(num), Dated(parse, num, rows));
    if j in imp {
      var k :| 0 <= k < |imp| && imp[k] == j;
      var i := idx[k];
      assert imp[k] == pos[i];
      assert i in idx;
      SurvivorDateAt(parse, num, rows, i);
    }
    if Numeric(num, FillAll(rows)[j]) && RowDate(parse, num, rows, j).Some? {
      var i :| 0 <= i < |pos| && pos[i] == j;
      SurvivorDateAt(parse, num, rows, i);
      assert i in idx;
      var k :| 0 <= k < |idx| && idx[k] == i;
      assert imp[k] == j;
    }
  }

  /** Sheet row `j` is imported iff it is numeric and a numeric row at or before it has a
      parseable filled WorkoutDate. */
  lemma CleanRowsSheetWhich(parse: DateParser, num: NumberParser, rows: seq<Row>)
    ensures forall j :: 0 <= j < |rows| ==> (j in ImportedRows(parse, num, rows) <==>
      Numeric(num, FillAll(rows)[j]) &&
      exists l :: 0 <= l <= j && Numeric(num, FillAll(rows)[l]) && parse(FillAll(rows)[l].date).Some?)
  {
    forall j | 0 <= j < |rows|
      ensures j in ImportedRows(parse, num, rows) <==>
        Numeric(num, FillAll(rows)[j]) && RowDate(parse, num, rows, j).Some?
    {
      ImportedRowWhich(parse, num, rows, j);
    }
    forall j | 0 <= j < |rows| {
      RowDateFound(parse, num, rows, j);
    }
  }

  /** The `k`-th cleaned row is the record of sheet row `ImportedRows(parse, num, rows)[k]`. */
  lemma ImportedRowAt(parse: DateParser, num: NumberParser, rows: seq<Row>, k: nat)
    requires k < |ImportedRows(parse, num, rows)|
    ensures ImportedRows(parse, num, rows)[k] < |rows| && k < |CleanRows(parse, num, rows)|
    ensures Numeric(num, rows[ImportedRows(parse, num, rows)[k]])
    ensures RowDate(parse, num, rows, ImportedRows(parse, num, rows)[k]).Some?
    ensures CleanRows(parse, num, rows)[k] ==
      Clean(RowDate(parse, num, rows, ImportedRows(parse, num, rows)[k]).value,
            FillAll(rows)[ImportedRows(parse, num, rows)[k]].exercise,
            Number(num, rows[ImportedRows(parse, num, rows)[k]].reps).value,
            Number(num, rows[ImportedRows(parse, num, rows)[k]].weight).value)
  {
    var pos := SurvivorRows(num, rows);
    var idx := Kept(parse, num, rows);
    CleanRowsOrder(parse, num, rows);
    CleanRowsAt(parse, num, rows);
    SurvivorsAt(num, rows);
    PickedOrdered(Recorder(num), Dated(parse, num, rows));
    var i := idx[k];
    assert ImportedRows(parse, num, rows)[k] == pos[i];
    SurvivorDateAt(parse, num, rows, i);
  }

  /** The `k`-th cleaned row is sheet row `ImportedRows(parse, num, rows)[k]`: its date, its
      filled exercise and its coerced numbers. */
  lemma CleanRowsSheetAt(parse: DateParser, num: NumberParser, rows: seq<Row>)
    ensures forall k :: 0 <= k < |ImportedRows(parse, num, rows)| ==>
      var j := ImportedRows(parse, num, rows)[k];
      j < |rows| && k < |CleanRows(parse, num, rows)| &&
      Numeric(num, rows[j]) && RowDate(parse, num, rows, j).Some? &&
      CleanRows(parse, num, rows)[k] ==
        Clean(RowDate(parse, num, rows, j).value, FillAll(rows)[j].exercise,
              Number(num, rows[j].reps).value, Number(num, rows[j].weight).value)
  {
    forall k | 0 <= k < |ImportedRows(parse, num, rows)| {
      ImportedRowAt(parse, num, rows, k);
    }
  }

  /** The length of the longest prefix of `cs` whose exercise cells are all text. */
  function TextPrefix(cs: seq<Clean>): (k: nat)
    ensures k <= |cs|
    ensures forall j :: 0 <= j < k ==> cs[j].exercise.Text?
    ensures k < |cs| ==> !cs[k].exercise.Text?
  {
    if cs == [] || !cs[0].exercise.Text? then 0 else 1 + TextPrefix(cs[1..])
  }

  /** The workout an imported row becomes: one set, reps truncated by `int(...)`. */
  function AsWorkout(c: Clean): Workout
    requires c.exercise.Text?
  {
    Workout(c.date, c.exercise.s, 1, Trunc(c.reps), c.weight)
  }

  /** `AsWorkout` on each row, for rows whose exercises are all text. */
  function AsWorkouts(cs: seq<Clean>): (ws: seq<Workout>)
    requires forall j :: 0 <= j < |cs| ==> cs[j].exercise.Text?
    ensures |ws| == |cs|
  {
    if cs == [] then [] else [AsWorkout(cs[0])] + AsWorkouts(cs[1..])
  }

  lemma {:induction false} AsWorkoutsAt(cs: seq<Clean>)
    requires forall j :: 0 <= j < |cs| ==> cs[j].exercise.Text?
    ensures forall k :: 0 <= k < |cs| ==> AsWorkouts(cs)[k] == AsWorkout(cs[k])
  {
    if cs != [] {
      AsWorkoutsAt(cs[1..]);
      forall k | 1 <= k < |cs| ensures AsWorkouts(cs)[k] == AsWorkout(cs[k]) {
        assert cs[1..][k - 1] == cs[k];
      }
    }
  }

  /** The inserts into `workouts` reached before the loop stops, and whether it finished. */
  datatype Insertion = Insertion(store: Store, finished: bool)

  /** The insert loop: one insert per cleaned row, in order. The store rejects a row
      whose exercise is not text (NaN is not valid JSON), which raises and ends the loop
      with the earlier rows already inserted. */
  function InsertRows(s: Store, cs: seq<Clean>): (r: Insertion)
    ensures r.finished <==> TextPrefix(cs) == |cs|
    ensures r.store.workouts == s.workouts + Stamped(s.nextId, AsWorkouts(cs[..TextPrefix(cs)]))
    ensures r.store.nextId == s.nextId + TextPrefix(cs)
    ensures r.store.exercises == s.exercises
    decreases |cs|
  {
    if cs == [] then Insertion(s, true)
    else if !cs[0].exercise.Text? then
      assert cs[..0] == [];
      Insertion(s, false)
    else
      var next := InsertWorkout(s, AsWorkout(cs[0]));
      var r := InsertRows(next, cs[1..]);
      var k := TextPrefix(cs);
      assert cs[..k] == [cs[0]] + cs[1..][..k - 1];
      assert AsWorkouts(cs[..k]) == [AsWorkout(cs[0])] + AsWorkouts(cs[1..][..k - 1]);
      AppendStamped(s.workouts, s.nextId, AsWorkouts(cs[..k]));
      r
  }

  function ExerciseCell(c: Clean): Cell {
    c.exercise
  }

  /** Lines 92-111: empty `workouts`, insert the cleaned rows, empty `exercises`, insert
      the sorted distinct exercise names. */
  function ReplaceAll(s: Store, cs: seq<Clean>): (r: ImportResult)
    ensures r.ok <==> forall k :: 0 <= k < |cs| ==> cs[k].exercise.Text?
    ensures r.ok ==>
      r.message == ImportedCount(|cs|) && |r.store.workouts| == |cs| &&
      (forall k :: 0 <= k < |cs| ==>
        r.store.workouts[k] ==
          Entry(s.nextId + k, Workout(cs[k].date, cs[k].exercise.s, 1, Trunc(cs[k].reps), cs[k].weight))) &&
      StrictlySorted(r.store.exercises) &&
      (forall x :: x in r.store.exercises <==> exists k :: 0 <= k < |cs| && cs[k].exercise == Text(x)) &&
      r.store.nextId == s.nextId + |cs|
    ensures !r.ok ==>
      var n := TextPrefix(cs);
      r.message == ImportError && n < |cs| && !cs[n].exercise.Text? &&
      |r.store.workouts| == n &&
      (forall k :: 0 <= k < n ==>
        r.store.workouts[k] ==
          Entry(s.nextId + k, Workout(cs[k].date, cs[k].exercise.s, 1, Trunc(cs[k].reps), cs[k].weight))) &&
      r.store.exercises == s.exercises && r.store.nextId == s.nextId + n
  {
    var ins := InsertRows(ClearWorkouts(s), cs);
    InsertedRows(s, cs);
    if !ins.finished then
      ImportResult(false, ImportError, ins.store)
    else
      var names := Map(ExerciseCell, cs);
      ExerciseNames(cs);
      var emptied := ClearExercises(ins.store);
      ImportResult(true, ImportedCount(|cs|), emptied.(exercises := emptied.exercises + SortedDistinct(Texts(names))))
  }

  /** The insert loop run on an emptied table leaves one entry per inserted row, with
      consecutive ids from the next id on. */
  lemma InsertedRows(s: Store, cs: seq<Clean>)
    ensures var ws := InsertRows(ClearWorkouts(s), cs).store.workouts;
      |ws| == TextPrefix(cs) &&
      forall k :: 0 <= k < TextPrefix(cs) ==>
        ws[k] == Entry(s.nextId + k, Workout(cs[k].date, cs[k].exercise.s, 1, Trunc(cs[k].reps), cs[k].weight))
  {
    var n := TextPrefix(cs);
    StampedAt(s.nextId, AsWorkouts(cs[..n]));
    AsWorkoutsAt(cs[..n]);
    forall k | 0 <= k < n ensures cs[..n][k] == cs[k] { }
  }

  /** The catalogue holds exactly the text exercise names of the rows. */
  lemma ExerciseNames(cs: seq<Clean>)
    ensures forall x :: x in SortedDistinct(Texts(Map(ExerciseCell, cs))) <==>
      exists k :: 0 <= k < |cs| && cs[k].exercise == Text(x)
  {
    var names := Map(ExerciseCell, cs);
    forall x | Text(x) in names ensures exists k :: 0 <= k < |cs| && cs[k].exercise == Text(x) {
      var k :| 0 <= k < |names| && names[k] == Text(x);
      assert cs[k].exercise == Text(x);
    }
    forall x | exists k :: 0 <= k < |cs| && cs[k].exercise == Text(x) ensures Text(x) in names {
      var k :| 0 <= k < |cs| && cs[k].exercise == Text(x);
      assert names[k] == Text(x);
    }
  }

  /** `import_excel_workouts`. */
  function ImportExcel(parse: DateParser, num: NumberParser, sheet: Sheet, s: Store): (r: ImportResult)
    ensures r.message.MissingColumns? <==> exists c :: c in RequiredColumns && c !in sheet.columns
    ensures r.message.MissingColumns? ==>
      !r.ok && r.store == s &&
      (forall c :: c in r.message.missing <==> c in RequiredColumns && c !in sheet.columns) &&
      IsSubseq(r.message.missing, RequiredColumns)
    ensures !r.message.MissingColumns? ==> r == ReplaceAll(s, CleanRows(parse, num, sheet.rows))
  {
    var missing := MissingColumnsOf(sheet.columns);
    if missing != [] then
      assert missing[0] in missing;
      ImportResult(false, MissingColumns(missing), s)
    else ReplaceAll(s, CleanRows(parse, num, sheet.rows))
  }

  /** With no parseable WorkoutDate in the sheet, no filled row has one either. */
  lemma {:induction false} FilledUndated(parse: DateParser, rows: seq<Row>)
    requires RejectsBlank(parse)
    requires forall i :: 0 <= i < |rows| ==> parse(rows[i].date).None?
    ensures forall x :: x in FillAll(rows) ==> parse(x.date).None?
  {
    var filled := FillAll(rows);
    FFillUnparsed(parse, Column(rows, WorkoutDate));
    forall x | x in filled ensures parse(x.date).None? {
      var i :| 0 <= i < |filled| && filled[i] == x;
    }
  }

  /** With no parseable WorkoutDate in the sheet, no row is cleaned. */
  lemma {:induction false} NoDatesNoRows(parse: DateParser, num: NumberParser, rows: seq<Row>)
    requires RejectsBlank(parse)
    requires forall i :: 0 <= i < |rows| ==> parse(rows[i].date).None?
    ensures CleanRows(parse, num, rows) == []
  {
    FilledUndated(parse, rows);
    NoDatedSurvivor(parse, num, rows);
  }

  /** When no row that passes the numeric filter carries a parseable (filled) date,
      nothing is imported, whatever dates the dropped rows carry. */
  lemma {:induction false} NoDatedSurvivor(parse: DateParser, num: NumberParser, rows: seq<Row>)
    requires forall x :: x in Survivors(num, rows) ==> parse(x.date).None?
    ensures CleanRows(parse, num, rows) == []
  {
    var kept := Survivors(num, rows);
    forall i | 0 <= i < |kept| ensures SurvivorDate(parse, kept, i).None? {
      var p := Column(kept, WorkoutDate)[..i + 1];
      LatestParsedFound(parse, p);
      forall j | 0 <= j < |p| ensures parse(p[j]).None? {
        assert p[j] == kept[j].date;
        assert kept[j] in kept;
      }
    }
    CleanRowsEmpty(parse, num, rows);
  }

  /** A sheet with no parseable WorkoutDate imports nothing: the import succeeds, reports
      zero workouts and leaves both tables empty. */
  lemma ImportNoDates(parse: DateParser, num: NumberParser, sheet: Sheet, s: Store)
    requires RejectsBlank(parse)
    requires forall c :: c in RequiredColumns ==> c in sheet.columns
    requires forall i :: 0 <= i < |sheet.rows| ==> parse(sheet.rows[i].date).None?
    ensures var r := ImportExcel(parse, num, sheet, s);
      r.ok && r.message == ImportedCount(0) && r.store.workouts == [] && r.store.exercises == []
  {
    NoDatesNoRows(parse, num, sheet.rows);
    var r := ImportExcel(parse, num, sheet, s);
  }
}

=== FILE: seqs.dfy ===
/** Order-preserving sequence combinators: the boolean masks, `dropna` calls and
    row-by-row loops of the program are all instances of these. */
module Seqs {
  import opened Wrappers

  /** The elements of `xs` that satisfy `p`, in their original order. */
  function Filter<T(!new)>(p: T -> bool, xs: seq<T>): (r: seq<T>)
    ensures |r| <= |xs|
    ensures forall x :: x in r <==> x in xs && p(x)
  {
    if xs == [] then []
    else
      assert xs == [xs[0]] + xs[1..];
      (if p(xs[0]) then [xs[0]] else []) + Filter(p, xs[1..])
  }

  /** The values `f` yields along `xs`, in order, skipping the elements it rejects. */
  function FilterMap<A, B>(f: A -> Option<B>, xs: seq<A>): (r: seq<B>)
    ensures |r| <= |xs|
  {
    if xs == [] then []
    else (if f(xs[0]).Some? then [f(xs[0]).value] else []) + FilterMap(f, xs[1..])
  }

  /** Pairs up two sequences of the same length, position by position. */
  function Zip<A, B>(xs: seq<A>, ys: seq<B>): (r: seq<(A, B)>)
    requires |xs| == |ys|
    ensures |r| == |xs|
    ensures forall i :: 0 <= i < |xs| ==> r[i] == (xs[i], ys[i])
  {
    if xs == [] then [] else [(xs[0], ys[0])] + Zip(xs[1..], ys[1..])
  }

  /** `f` applied to every element, in order. */
  function Map<A, B>(f: A -> B, xs: seq<A>): (r: seq<B>)
    ensures |r| == |xs|
    ensures forall i :: 0 <= i < |xs| ==> r[i] == f(xs[i])
  {
    if xs == [] then [] else [f(xs[0])] + Map(f, xs[1..])
  }

  /** `xs` can be obtained from `ys` by deleting elements. */
  predicate IsSubseq<T(==)>(xs: seq<T>, ys: seq<T>)
    decreases |ys|
  {
    xs == [] ||
    (ys != [] &&
     ((xs[0] == ys[0] && IsSubseq(xs[1..], ys[1..])) || IsSubseq(xs, ys[1..])))
  }

  /** No element occurs twice. */
  predicate NoDup<T(==)>(xs: seq<T>) {
    forall i, j :: 0 <= i < j < |xs| ==> xs[i] != xs[j]
  }

  /** The positions of `xs` at which `f` yields a value, in increasing order. */
  function Picked<A, B>(f: A -> Option<B>, xs: seq<A>): (r: seq<nat>)
    ensures |r| == |FilterMap(f, xs)|
  {
    if xs == [] then []
    else
      var rest := Picked(f, xs[1..]);
      (if f(xs[0]).Some? then [0] else []) + seq(|rest|, k requires 0 <= k < |rest| => rest[k] + 1)
  }

  lemma PickedUnfold<A, B>(f: A -> Option<B>, xs: seq<A>)
    requires xs != []
    ensures Picked(f, xs) ==
      (if f(xs[0]).Some? then [0] else []) +
      seq(|Picked(f, xs[1..])|, k requires 0 <= k < |Picked(f, xs[1..])| => Picked(f, xs[1..])[k] + 1)
    ensures FilterMap(f, xs) == (if f(xs[0]).Some? then [f(xs[0]).value] else []) + FilterMap(f, xs[1..])
  {
  }

  /** The places `Picked` lists are positions of `xs`, in strictly increasing order. */
  lemma {:induction false} PickedOrdered<A, B>(f: A -> Option<B>, xs: seq<A>)
    ensures forall k :: 0 <= k < |Picked(f, xs)| ==> Picked(f, xs)[k] < |xs|
    ensures forall k, l :: 0 <= k < l < |Picked(f, xs)| ==> Picked(f, xs)[k] < Picked(f, xs)[l]
  {
    if xs != [] {
      PickedOrdered(f, xs[1..]);
      PickedUnfold(f, xs);
    }
  }

  /** The `k`-th value `FilterMap` keeps is what `f` yields at the `k`-th picked place. */
  lemma {:induction false} PickedValues<A, B>(f: A -> Option<B>, xs: seq<A>)
    ensures forall k :: 0 <= k < |Picked(f, xs)| ==>
      Picked(f, xs)[k] < |xs| && f(xs[Picked(f, xs)[k]]) == Some(FilterMap(f, xs)[k])
  {
    if xs != [] {
      var tail := xs[1..];
      PickedValues(f, tail);
      PickedUnfold(f, xs);
      var rest := Picked(f, tail);
      var n := if f(xs[0]).Some? then 1 else 0;
      forall k | 0 <= k < |Picked(f, xs)|
        ensures Picked(f, xs)[k] < |xs| && f(xs[Picked(f, xs)[k]]) == Some(FilterMap(f, xs)[k])
      {
        if k >= n {
          assert Picked(f, xs)[k] == rest[k - n] + 1;
          assert FilterMap(f, xs)[k] == FilterMap(f, tail)[k - n];
          assert xs[rest[k - n] + 1] == tail[rest[k - n]];
        }
      }
    }
  }

  /** Every place at which `f` yields a value is picked. */
  lemma {:induction false} PickedComplete<A, B>(f: A -> Option<B>, xs: seq<A>)
    ensures forall i :: 0 <= i < |xs| && f(xs[i]).Some? ==> i in Picked(f, xs)
  {
    if xs != [] {
      var tail := xs[1..];
      PickedComplete(f, tail);
      PickedUnfold(f, xs);
      var rest := Picked(f, tail);
      forall i | 1 <= i < |xs| && f(xs[i]).Some?
        ensures i in Picked(f, xs)
      {
        assert tail[i - 1] == xs[i];
        var k :| 0 <= k < |rest| && rest[k] == i - 1;
        var n := if f(xs[0]).Some? then 1 else 0;
        assert Picked(f, xs)[k + n] == i;
      }
    }
  }

  lemma {:induction false} FilterAppend<T(!new)>(p: T -> bool, xs: seq<T>, ys: seq<T>)
    ensures Filter(p, xs + ys) == Filter(p, xs) + Filter(p, ys)
  {
    if xs == [] {
      assert xs + ys == ys;
    } else {
      assert (xs + ys)[1..] == xs[1..] + ys;
      FilterAppend(p, xs[1..], ys);
    }
  }

  lemma {:induction false} FilterMapAppend<A, B>(f: A -> Option<B>, xs: seq<A>, ys: seq<A>)
    ensures FilterMap(f, xs + ys) == FilterMap(f, xs) + FilterMap(f, ys)
  {
    if xs == [] {
      assert xs + ys == ys;
    } else {
      var head := if f(xs[0]).Some? then [f(xs[0]).value] else [];
      assert (xs + ys)[0] == xs[0] && (xs + ys)[1..] == xs[1..] + ys;
      assert FilterMap(f, xs + ys) == head + FilterMap(f, xs[1..] + ys);
      FilterMapAppend(f, xs[1..], ys);
      assert FilterMap(f, xs) == head + FilterMap(f, xs[1..]);
    }
  }

  /** Prepending an element to the larger sequence keeps a subsequence a subsequence. */
  lemma SubseqCons<T>(xs: seq<T>, y: T, ys: seq<T>)
    requires IsSubseq(xs, ys)
    ensures IsSubseq(xs, [y] + ys)
  {
    assert ([y] + ys)[1..] == ys;
  }

  lemma {:induction false} SubseqRefl<T>(xs: seq<T>)
    ensures IsSubseq(xs, xs)
  {
    if xs != [] {
      SubseqRefl(xs[1..]);
    }
  }

  lemma {:induction false} FilterIsSubseq<T(!new)>(p: T -> bool, xs: seq<T>)
    ensures IsSubseq(Filter(p, xs), xs)
  {
    if xs != [] {
      FilterIsSubseq(p, xs[1..]);
      if p(xs[0]) {
        assert Filter(p, xs) == [xs[0]] + Filter(p, xs[1..]);
        assert Filter(p, xs)[1..] == Filter(p, xs[1..]);
      } else {
        assert Filter(p, xs) == Filter(p, xs[1..]);
        SubseqCons(Filter(p, xs[1..]), xs[0], xs[1..]);
        assert [xs[0]] + xs[1..] == xs;
      }
    }
  }

  /** A filter that every element passes changes nothing. */
  lemma {:induction false} FilterKeepsAll<T(!new)>(p: T -> bool, xs: seq<T>)
    requires forall x :: x in xs ==> p(x)
    ensures Filter(p, xs) == xs
  {
    if xs != [] {
      FilterKeepsAll(p, xs[1..]);
      assert [xs[0]] + xs[1..] == xs;
    }
  }

  /** A filter that every element fails leaves nothing. */
  lemma {:induction false} FilterRejectsAll<T(!new)>(p: T -> bool, xs: seq<T>)
    requires forall x :: x in xs ==> !p(x)
    ensures Filter(p, xs) == []
  {
    if xs != [] {
      FilterRejectsAll(p, xs[1..]);
    }
  }

  /** Two filters that agree on every element of `xs` select the same elements. */
  lemma {:induction false} FilterAgree<T(!new)>(p: T -> bool, q: T -> bool, xs: seq<T>)
    requires forall x :: x in xs ==> p(x) == q(x)
    ensures Filter(p, xs) == Filter(q, xs)
  {
    if xs != [] {
      FilterAgree(p, q, xs[1..]);
    }
  }

  lemma {:induction false} FilterIdempotent<T(!new)>(p: T -> bool, xs: seq<T>)
    ensures Filter(p, Filter(p, xs)) == Filter(p, xs)
  {
    FilterKeepsAll(p, Filter(p, xs));
  }

  function Both<T>(p: T -> bool, q: T -> bool): T -> bool {
    x => p(x) && q(x)
  }

  /** Filtering by `p` and then by `q` is filtering once by their conjunction. */
  lemma {:induction false} FilterCompose<T(!new)>(p: T -> bool, q: T -> bool, xs: seq<T>)
    ensures Filter(q, Filter(p, xs)) == Filter(Both(p, q), xs)
  {
    if xs != [] {
      FilterCompose(p, q, xs[1..]);
      FilterAppend(q, if p(xs[0]) then [xs[0]] else [], Filter(p, xs[1..]));
    }
  }

  /** `Filter` keeps every copy of an element that passes and none of one that fails. */
  lemma {:induction false} FilterCount<T(!new)>(p: T -> bool, xs: seq<T>)
    ensures forall x :: multiset(Filter(p, xs))[x] == if p(x) then multiset(xs)[x] else 0
  {
    if xs != [] {
      FilterCount(p, xs[1..]);
      assert xs == [xs[0]] + xs[1..];
      assert multiset(xs) == multiset{xs[0]} + multiset(xs[1..]);
      assert Filter(p, xs) == (if p(xs[0]) then [xs[0]] else []) + Filter(p, xs[1..]);
    }
  }

  /** The places `b + i` of `xs` whose elements pass `p`, in increasing order. */
  function PositionsFrom<T>(p: T -> bool, xs: seq<T>, b: nat): seq<nat> {
    if xs == [] then [] else (if p(xs[0]) then [b] else []) + PositionsFrom(p, xs[1..], b + 1)
  }

  /** The places of `xs` whose elements pass `p`, in increasing order. */
  function Positions<T>(p: T -> bool, xs: seq<T>): seq<nat> {
    PositionsFrom(p, xs, 0)
  }

  lemma {:induction false} PositionsFromLength<T(!new)>(p: T -> bool, xs: seq<T>, b: nat)
    ensures |PositionsFrom(p, xs, b)| == |Filter(p, xs)|
  {
    if xs != [] {
      PositionsFromLength(p, xs[1..], b + 1);
    }
  }

  /** The `k`-th listed place holds the `k`-th element `Filter` keeps. */
  lemma {:induction false} PositionsFromAt<T(!new)>(p: T -> bool, xs: seq<T>, b: nat)
    ensures |PositionsFrom(p, xs, b)| == |Filter(p, xs)|
    ensures forall k :: 0 <= k < |PositionsFrom(p, xs, b)| ==>
      b <= PositionsFrom(p, xs, b)[k] < b + |xs| && Filter(p, xs)[k] == xs[PositionsFrom(p, xs, b)[k] - b]
  {
    if xs != [] {
      var tail := xs[1..];
      var rest := PositionsFrom(p, tail, b + 1);
      PositionsFromAt(p, tail, b + 1);
      var n := if p(xs[0]) then 1 else 0;
      var pf := PositionsFrom(p, xs, b);
      var kept := Filter(p, xs);
      assert pf == (if p(xs[0]) then [b] else []) + rest;
      assert kept == (if p(xs[0]) then [xs[0]] else []) + Filter(p, tail);
      forall k | 0 <= k < |pf| ensures b <= pf[k] < b + |xs| && kept[k] == xs[pf[k] - b] {
        if k >= n {
          assert pf[k] == rest[k - n];
          assert kept[k] == Filter(p, tail)[k - n];
          assert tail[rest[k - n] - (b + 1)] == xs[rest[k - n] - b];
        }
      }
    }
  }

  lemma {:induction false} PositionsFromOrdered<T(!new)>(p: T -> bool, xs: seq<T>, b: nat)
    ensures forall k, l :: 0 <= k < l < |PositionsFrom(p, xs, b)| ==>
      PositionsFrom(p, xs, b)[k] < PositionsFrom(p, xs, b)[l]
  {
    if xs != [] {
      PositionsFromOrdered(p, xs[1..], b + 1);
      PositionsFromAt(p, xs[1..], b + 1);
    }
  }

  /** Place `b + i` is listed when element `i` passes. */
  lemma {:induction false} PositionsFromHas<T>(p: T -> bool, xs: seq<T>, b: nat, i: nat)
    requires i < |xs| && p(xs[i])
    ensures b + i in PositionsFrom(p, xs, b)
    decreases i
  {
    if i > 0 {
      assert xs[1..][i - 1] == xs[i];
      PositionsFromHas(p, xs[1..], b + 1, i - 1);
    }
  }

  /** `Filter` on a non-empty prefix, one step unfolded. */
  lemma FilterTake<T(!new)>(p: T -> bool, xs: seq<T>, m: nat)
    requires 0 < m <= |xs|
    ensures Filter(p, xs[..m]) == (if p(xs[0]) then [xs[0]] else []) + Filter(p, xs[1..][..m - 1])
  {
    var pre := xs[..m];
    assert pre[0] == xs[0] && pre[1..] == xs[1..][..m - 1];
  }

  lemma ConcatPrefix<T>(h: seq<T>, t: seq<T>, m: nat)
    requires m <= |t|
    ensures (h + t)[..|h| + m] == h + t[..m]
  {
  }

  /** Filtering the prefix that ends at the `k`-th listed place gives the first `k+1`
      elements the whole filter keeps. */
  lemma {:induction false} PositionsFromPrefix<T(!new)>(p: T -> bool, xs: seq<T>, b: nat, k: nat)
    requires k < |PositionsFrom(p, xs, b)|
    ensures b <= PositionsFrom(p, xs, b)[k] < b + |xs| && |PositionsFrom(p, xs, b)| == |Filter(p, xs)|
    ensures Filter(p, xs[..PositionsFrom(p, xs, b)[k] - b + 1]) == Filter(p, xs)[..k + 1]
    decreases |xs|
  {
    PositionsFromLength(p, xs, b);
    assert xs != [];
    var tail := xs[1..];
    var rest := PositionsFrom(p, tail, b + 1);
    var w := PositionsFrom(p, xs, b)[k] - b;
    var head := if p(xs[0]) then [xs[0]] else [];
    assert Filter(p, xs) == head + Filter(p, tail);
    if p(xs[0]) && k == 0 {
      assert xs[..w + 1] == [xs[0]];
    } else {
      var n := if p(xs[0]) then 1 else 0;
      assert PositionsFrom(p, xs, b)[k] == rest[k - n];
      PositionsFromPrefix(p, tail, b + 1, k - n);
      FilterTake(p, xs, w + 1);
      ConcatPrefix(head, Filter(p, tail), k - n + 1);
    }
  }

  /** The `k`-th element `Filter` keeps is the element at the `k`-th listed position. */
  lemma FilterPositionsAt<T(!new)>(p: T -> bool, xs: seq<T>)
    ensures |Positions(p, xs)| == |Filter(p, xs)|
    ensures forall k :: 0 <= k < |Positions(p, xs)| ==>
      Positions(p, xs)[k] < |xs| && Filter(p, xs)[k] == xs[Positions(p, xs)[k]]
  {
    PositionsFromAt(p, xs, 0);
  }

  lemma FilterPositionsOrdered<T(!new)>(p: T -> bool, xs: seq<T>)
    ensures forall k, l :: 0 <= k < l < |Positions(p, xs)| ==> Positions(p, xs)[k] < Positions(p, xs)[l]
  {
    PositionsFromOrdered(p, xs, 0);
  }

  /** The positions listed are exactly those whose element passes. */
  lemma FilterPositionsWhich<T(!new)>(p: T -> bool, xs: seq<T>)
    ensures forall i :: 0 <= i < |xs| ==> (i in Positions(p, xs) <==> p(xs[i]))
  {
    var pos := Positions(p, xs);
    var kept := Filter(p, xs);
    FilterPositionsAt(p, xs);
    forall i | 0 <= i < |xs| ensures i in pos <==> p(xs[i]) {
      if p(xs[i]) {
        PositionsFromHas(p, xs, 0, i);
      }
      if i in pos {
        var k :| 0 <= k < |pos| && pos[k] == i;
        assert kept[k] in kept;
      }
    }
  }

  /** Filtering the prefix that ends at the `k`-th passing position gives the first `k+1`
      elements the whole filter keeps. */
  lemma FilterPrefix<T(!new)>(p: T -> bool, xs: seq<T>, k: nat)
    requires k < |Positions(p, xs)|
    ensures Positions(p, xs)[k] < |xs| && |Positions(p, xs)| == |Filter(p, xs)|
    ensures Filter(p, xs[..Positions(p, xs)[k] + 1]) == Filter(p, xs)[..k + 1]
  {
    PositionsFromPrefix(p, xs, 0, k);
  }

  /** FilterMap over two sequences that yield the same value position by position. */
  lemma {:induction false} FilterMapAgree<A, B, C>(f: A -> Option<C>, g: B -> Option<C>, xs: seq<A>, ys: seq<B>)
    requires |xs| == |ys|
    requires forall i :: 0 <= i < |xs| ==> f(xs[i]) == g(ys[i])
    ensures FilterMap(f, xs) == FilterMap(g, ys)
  {
    if xs != [] {
      assert f(xs[0]) == g(ys[0]);
      forall i | 0 <= i < |xs[1..]| ensures f(xs[1..][i]) == g(ys[1..][i]) {
        assert xs[1..][i] == xs[i + 1] && ys[1..][i] == ys[i + 1];
      }
      FilterMapAgree(f, g, xs[1..], ys[1..]);
    }
  }
}

=== FILE: strings.dfy ===
/** Python's ordering of `str` values (code point by code point, a proper prefix first),
    `sorted` over lists of names, and the sorted, duplicate-free list that
    `sorted(set(xs))` and `sorted(series.unique())` both produce. */
module Strings {

  /** `a < b` on Python strings. */
  predicate Below(a: string, b: string)
    decreases |a|
  {
    if a == [] then b != []
    else if b == [] then false
    else if a[0] != b[0] then a[0] < b[0]
    else Below(a[1..], b[1..])
  }

  lemma BelowIrreflexive(a: string)
    ensures !Below(a, a)
  {
  }

  lemma BelowAsymmetric(a: string, b: string)
    ensures !(Below(a, b) && Below(b, a))
  {
  }

  lemma BelowTotal(a: string, b: string)
    ensures a == b || Below(a, b) || Below(b, a)
  {
    if a != [] && b != [] && a[0] == b[0] {
      BelowTotal(a[1..], b[1..]);
      assert a == [a[0]] + a[1..];
      assert b == [b[0]] + b[1..];
    }
  }

  lemma BelowTransitive(a: string, b: string, c: string)
    requires Below(a, b) && Below(b, c)
    ensures Below(a, c)
  {
    if a != [] && a[0] == b[0] && b[0] == c[0] {
      BelowTransitive(a[1..], b[1..], c[1..]);
    }
  }

  /** The facts above, for every triple of strings at once. */
  lemma BelowIsOrder()
    ensures forall a :: !Below(a, a)
    ensures forall a, b :: a == b || Below(a, b) || Below(b, a)
    ensures forall a, b, c :: Below(a, b) && Below(b, c) ==> Below(a, c)
  {
    forall a ensures !Below(a, a) { BelowIrreflexive(a); }
    forall a, b ensures a == b || Below(a, b) || Below(b, a) { BelowTotal(a, b); }
    forall a, b, c | Below(a, b) && Below(b, c) ensures Below(a, c) { BelowTransitive(a, b, c); }
  }

  /** No element is below an earlier one: what `sorted` returns. */
  predicate Sorted(xs: seq<string>) {
    forall i, j :: 0 <= i < j < |xs| ==> !Below(xs[j], xs[i])
  }

  /** Every element is below every later one: sorted and duplicate-free. */
  predicate StrictlySorted(xs: seq<string>) {
    forall i, j :: 0 <= i < j < |xs| ==> Below(xs[i], xs[j])
  }

  /** An element that no head is below can go in front of a sorted list. */
  lemma SortedCons(y: string, ys: seq<string>)
    requires Sorted(ys)
    requires ys != [] ==> !Below(ys[0], y)
    ensures Sorted([y] + ys)
  {
    var r := [y] + ys;
    forall i, j | 0 <= i < j < |r| ensures !Below(r[j], r[i]) {
      if i == 0 {
        if j > 1 {
          var a, b := ys[0], ys[j - 1];
          assert !Below(b, a);
          BelowTotal(a, b);
          if Below(a, b) && Below(b, y) {
            BelowTransitive(a, b, y);
          }
        }
      } else {
        assert r[i] == ys[i - 1] && r[j] == ys[j - 1];
      }
    }
  }

  /** Inserts `x` into a sorted list before the first element that is not below it. */
  function Insert(x: string, xs: seq<string>): (r: seq<string>)
    requires Sorted(xs)
    ensures Sorted(r)
    ensures multiset(r) == multiset(xs) + multiset{x}
    ensures r != [] && (r[0] == x || (xs != [] && r[0] == xs[0]))
  {
    if xs == [] || !Below(xs[0], x) then
      SortedCons(x, xs);
      [x] + xs
    else
      assert xs == [xs[0]] + xs[1..];
      var rest := Insert(x, xs[1..]);
      BelowAsymmetric(xs[0], x);
      SortedCons(xs[0], rest);
      [xs[0]] + rest
  }

  /** Python's `sorted` on a list of strings. */
  function Sort(xs: seq<string>): (r: seq<string>)
    ensures Sorted(r)
    ensures multiset(r) == multiset(xs)
  {
    if xs == [] then []
    else
      assert xs == [xs[0]] + xs[1..];
      Insert(xs[0], Sort(xs[1..]))
  }

  /** Adds `x` to a strictly sorted list unless it is already there. */
  function InsertNew(x: string, xs: seq<string>): (r: seq<string>)
    requires StrictlySorted(xs)
    ensures StrictlySorted(r)
    ensures forall s :: s in r <==> s == x || s in xs
    ensures r != [] && (r[0] == x || (xs != [] && r[0] == xs[0]))
  {
    BelowIsOrder();
    if xs == [] || Below(x, xs[0]) then [x] + xs
    else if x == xs[0] then xs
    else
      assert xs == [xs[0]] + xs[1..];
      [xs[0]] + InsertNew(x, xs[1..])
  }

  /** The distinct strings of `xs` in ascending order. */
  function SortedDistinct(xs: seq<string>): (r: seq<string>)
    ensures StrictlySorted(r)
    ensures forall s :: s in r <==> s in xs
  {
    if xs == [] then []
    else
      assert xs == [xs[0]] + xs[1..];
      InsertNew(xs[0], SortedDistinct(xs[1..]))
  }

  lemma StrictlySortedNoDup(xs: seq<string>)
    requires StrictlySorted(xs)
    ensures forall i, j :: 0 <= i < j < |xs| ==> xs[i] != xs[j]
  {
    BelowIsOrder();
  }

  /** There is only one strictly sorted list of a given set of strings, so any
      algorithm that sorts the distinct values (Python's included) yields `SortedDistinct`. */
  lemma {:induction false} StrictlySortedUnique(a: seq<string>, b: seq<string>)
    requires StrictlySorted(a) && StrictlySorted(b)
    requires forall s :: s in a <==> s in b
    ensures a == b
  {
    BelowIsOrder();
    assert a != [] ==> a[0] in b;
    assert b != [] ==> b[0] in a;
    if a != [] && b != [] {
      forall s
        ensures s in a[1..] <==> s in b[1..]
      {
        if s in a[1..] {
          var i :| 1 <= i < |a| && a[i] == s;
          assert Below(a[0], s);
          assert s in b && s != b[0];
          var j :| 0 <= j < |b| && b[j] == s;
          assert j != 0;
          assert b[1..][j - 1] == s;
        }
        if s in b[1..] {
          var j :| 1 <= j < |b| && b[j] == s;
          assert Below(b[0], s);
          assert s in a && s != a[0];
          var i :| 0 <= i < |a| && a[i] == s;
          assert i != 0;
          assert a[1..][i - 1] == s;
        }
      }
      StrictlySortedUnique(a[1..], b[1..]);
      assert a == [a[0]] + a[1..];
      assert b == [b[0]] + b[1..];
    }
  }

  lemma SortedDistinctIdempotent(xs: seq<string>)
    ensures SortedDistinct(SortedDistinct(xs)) == SortedDistinct(xs)
  {
    StrictlySortedUnique(SortedDistinct(SortedDistinct(xs)), SortedDistinct(xs));
  }

  /** `sep.join(xs)` in Python. */
  function Join(xs: seq<string>, sep: string): string {
    if xs == [] then ""
    else if |xs| == 1 then xs[0]
    else xs[0] + sep + Join(xs[1..], sep)
  }

  /** Decimal digits of `n`, as Python's `str(n)` prints a non-negative integer. */
  function NatToString(n: nat): string
    decreases n
  {
    var d := ['0', '1', '2', '3', '4', '5', '6', '7', '8', '9'][n % 10];
    if n < 10 then [d] else NatToString(n / 10) + [d]
  }
}

=== FILE: table.dfy ===
/** The spreadsheet as pandas reads it: cells, rows, the five named columns, and the
    two conversions both importers apply to a cell (date parsing and numeric coercion). */
module Table {
  import opened Wrappers

  /** One cell of the sheet: empty (pandas' NaN), a number, or text. A cell the
      spreadsheet stores as a date is represented by its text rendering, because both
      importers only ever look at `str(cell)`. */
  datatype Cell = Blank | Num(x: real) | Text(s: string)

  /** A calendar date without a time of day (Python's `datetime.date`). */
  datatype Date = Date(year: int, month: int, day: int)

  /** `a <= b` on dates: year first, then month, then day. */
  predicate DateLe(a: Date, b: Date) {
    a.year < b.year || (a.year == b.year && (a.month < b.month || (a.month == b.month && a.day <= b.day)))
  }

  lemma DateLeAntisymmetric(a: Date, b: Date)
    requires DateLe(a, b) && DateLe(b, a)
    ensures a == b
  {
  }

  /** The five columns the importers read. */
  datatype Field = WorkoutId | WorkoutDate | ExerciseName | Reps | WeightKg

  /** The column header each field is read from. */
  function ColumnName(f: Field): string {
    match f
    case WorkoutId => "WorkoutID"
    case WorkoutDate => "WorkoutDate"
    case ExerciseName => "ExerciseName"
    case Reps => "Reps"
    case WeightKg => "WeightKG"
  }

  /** The required headers, in the order the importer lists them. */
  const RequiredColumns: seq<string> := ["WorkoutID", "WorkoutDate", "ExerciseName", "Reps", "WeightKG"]

  /** One row of the sheet, one cell per column the importers read. */
  datatype Row = Row(id: Cell, date: Cell, exercise: Cell, reps: Cell, weight: Cell) {

    function Get(f: Field): Cell {
      match f
      case WorkoutId => id
      case WorkoutDate => date
      case ExerciseName => exercise
      case Reps => reps
      case WeightKg => weight
    }

    /** This row with column `f` replaced by `c` and every other column as it was. */
    function Set(f: Field, c: Cell): (r: Row)
      ensures r.Get(f) == c
      ensures forall g :: g != f ==> r.Get(g) == Get(g)
    {
      match f
      case WorkoutId => this.(id := c)
      case WorkoutDate => this.(date := c)
      case ExerciseName => this.(exercise := c)
      case Reps => this.(reps := c)
      case WeightKg => this.(weight := c)
    }
  }

  /** The sheet `pd.read_excel` returns: its header row and its data rows in file order. */
  datatype Sheet = Sheet(columns: seq<string>, rows: seq<Row>)

  /** `parse(str(cell), dayfirst=True).date()`, with every failure the importers catch
      (ParserError, ValueError, TypeError) as `None`. dateutil is a foreign library, so
      this is a parameter of the model rather than a definition. */
  type DateParser = Cell -> Option<Date>

  /** `pd.to_numeric(text, errors="coerce")` on a text cell, `None` standing for NaN. */
  type NumberParser = string -> Option<real>

  /** The blank cell does not parse as a date: `str(NaN)` is "nan". */
  predicate RejectsBlank(parse: DateParser) {
    parse(Blank).None?
  }

  /** The numeric value of a cell after `dropna` and `pd.to_numeric(errors="coerce")`:
      a blank cell is dropped, a number is kept, a text cell is coerced. */
  function Number(num: NumberParser, c: Cell): (r: Option<real>)
    ensures c.Blank? ==> r.None?
    ensures c.Num? ==> r == Some(c.x)
    ensures c.Text? ==> r == num(c.s)
  {
    match c
    case Blank => None
    case Num(x) => Some(x)
    case Text(s) => num(s)
  }

  /** Python's `int(x)` on a float: truncation toward zero. */
  function Trunc(x: real): (n: int)
    ensures 0.0 <= x ==> n as real <= x < n as real + 1.0
    ensures x < 0.0 ==> n as real - 1.0 < x <= n as real
  {
    if x >= 0.0 then x.Floor else -((-x).Floor)
  }

  lemma TruncExamples()
    ensures Trunc(12.7) == 12 && Trunc(12.0) == 12 && Trunc(-12.7) == -12
  {
  }

  /** The cells of column `f`, top to bottom. */
  function Column(rows: seq<Row>, f: Field): (cs: seq<Cell>)
    ensures |cs| == |rows|
    ensures forall i :: 0 <= i < |rows| ==> cs[i] == rows[i].Get(f)
  {
    if rows == [] then [] else [rows[0].Get(f)] + Column(rows[1..], f)
  }

  /** The column of a prefix is the prefix of the column. */
  lemma ColumnPrefix(rows: seq<Row>, f: Field, n: nat)
    requires n <= |rows|
    ensures Column(rows[..n], f) == Column(rows, f)[..n]
  {
  }

  /** `df[f] = cs`: column `f` replaced by `cs`, row by row. */
  function SetColumn(rows: seq<Row>, f: Field, cs: seq<Cell>): (r: seq<Row>)
    requires |cs| == |rows|
    ensures |r| == |rows|
    ensures forall i :: 0 <= i < |rows| ==> r[i] == rows[i].Set(f, cs[i])
  {
    if rows == [] then [] else [rows[0].Set(f, cs[0])] + SetColumn(rows[1..], f, cs[1..])
  }

  /** A row that survived cleaning: a resolved date, the (filled) exercise cell and the
      coerced numbers. */
  datatype Clean = Clean(date: Date, exercise: Cell, reps: real, weight: real)

  /** Both numbers of a row, when both are present and numeric. */
  predicate Numeric(num: NumberParser, r: Row) {
    Number(num, r.reps).Some? && Number(num, r.weight).Some?
  }

  /** The cleaned record for `row` with resolved date `d`: nothing when the date is
      unset or either number is missing or not numeric. */
  function Record(num: NumberParser, row: Row, d: Option<Date>): (c: Option<Clean>)
    ensures c.Some? <==> d.Some? && Numeric(num, row)
    ensures c.Some? ==> c.value.date == d.value && c.value.exercise == row.exercise
    ensures c.Some? ==> Some(c.value.reps) == Number(num, row.reps) && Some(c.value.weight) == Number(num, row.weight)
  {
    if d.Some? && Numeric(num, row) then
      Some(Clean(d.value, row.exercise, Number(num, row.reps).value, Number(num, row.weight).value))
    else None
  }

  /** `Record` on a row paired with its resolved date. */
  function Recorder(num: NumberParser): ((Row, Option<Date>)) -> Option<Clean> {
    (p: (Row, Option<Date>)) => Record(num, p.0, p.1)
  }

  /** The text cells of `names`, in order. */
  function Texts(names: seq<Cell>): (r: seq<string>)
    ensures forall s :: s in r <==> Text(s) in names
  {
    if names == [] then []
    else
      assert names == [names[0]] + names[1..];
      (if names[0].Text? then [names[0].s] else []) + Texts(names[1..])
  }
}

=== FILE: wrappers.dfy ===
/** Failure-carrying datatypes shared by the whole model. */
module Wrappers {

  /** A value that may be absent: pandas' NaN / Python's None. */
  datatype Option<+T> = None | Some(value: T)

  /** The outcome of an operation that either succeeds with a value or fails with an error. */
  datatype Result<+T, +E> = Success(value: T) | Failure(error: E)
}
